=== FILE: README.md ===
# GSTR-1 generator: a Dafny model of its transformation core

The GSTR-1 generator turns a ZIP of marketplace sales and returns workbooks
into the reports an Indian GST filer needs for GSTR-1:
- the B2CS summary (table 7);
- the HSN summary (table 12);
- in the newest script, the GSTR-1 JSON payload.

Three Streamlit scripts carry near-identical copies of the same pipeline:
- `newgstjson.py`, modelled as the variant `NewGst`;
- `GSTJSON.py`, modelled as `GstJson`;
- `messogstreturnv1.py`, modelled as `MessoV1`.

This project models that pipeline once and parameterises it by the script:
- **Archive classification** (`Archive`): entries are picked by the words in their names.
- **Header derivation** (`Header`):
  - GSTIN, month and year become the filing period `fp`, the filename and the supplier code;
  - the oldest script instead derives its filename from the latest order date.
- **Row normalisation and merge** (`Rows`):
  - each row is stamped Sale or Return;
  - amounts and quantities are forced to the sign of their type;
  - sales rows come first, then returns.
- **State code resolution** (`StateCodes`): title-cased state text is looked up in a fixed table of `"NN-Name"` codes.
- **Tax split** (`Tax`): `amount * rate / 100` is charged as CGST + SGST halves or as IGST.
- **Group-and-sum aggregation** (`Grouping`, `Summaries`):
  - buckets by (place of supply, rate) and by (HSN, rate);
  - the JSON's filtering of B2CS buckets, `sply_ty` derivation and HSN numbering.
- **The whole run** (`Pipeline`): error order per script, with the template download as a boolean input.

Amounts are exact `real`s. pandas' NaN (a value `to_numeric(errors="coerce")` cannot read) is `None` in an `Option<real>`:
- it propagates through `abs`, `*` and `+`;
- it adds nothing to a column sum, as pandas' `sum` skips it.

Spreadsheet cells are `Cell = Blank | Text | Int`.

Where the code and its documentation differ, the model follows the code:
- the state lookup only title-cases its input and does not trim or collapse whitespace;
- a missing report column makes `process_file` fail (the projection raises);
- in the oldest script an entry only has to exist to be "present", because it is held as an open file handle, which is always truthy.

## Model

| member | source | states |
|---|---|---|
| StateCodes.Lookup | newgstjson.py:59-86 | every table value is a known jurisdiction (number 1..97, non-empty name); Maharashtra is the only entry numbered 27; a key that hits starts with a capital letter |
| StateCodes.Resolve | newgstjson.py:445-446 | the code is "" exactly when the title-cased text is not a table key; otherwise it is the rendering of the entry found, two digits, a hyphen and a name |
| StateCodes.RenderWellFormed | newgstjson.py:59-86 | every rendered table value is two decimal digits, "-", a non-empty name, and its first two characters are the jurisdiction number |
| StateCodes.ResolveCaseInsensitive | newgstjson.py:445-446 | resolving is insensitive to the case pattern of the input: title-cased text resolves like the text itself |
| StateCodes.ResolveIgnoresCase | newgstjson.py:445-446 | texts that differ only in the case of their letters ("MAHARASHTRA", "maharashtra") resolve to the same code |
| StateCodes.LakshdweepNameIsNotAKey | newgstjson.py:78 | the table's canonical name "Lakshdweep" is not itself a key, so re-resolving it misses |
| Rows.Signed | newgstjson.py:109-118 | NaN stays NaN, the magnitude is kept, a Return value is at most 0 and a Sale value at least 0 |
| Rows.SignedUnique | newgstjson.py:113-118 | the sign convention determines the normalised value: any value with those properties is the one computed |
| Rows.Normalise | newgstjson.py:107-118 | a row is stamped with its TYPE, its amount and quantity signed, every other column untouched |
| Rows.NormaliseIdempotent | newgstjson.py:113-118 | normalising an already normalised row as the same type changes nothing |
| Rows.ProcessFile | newgstjson.py:100-120 | fails with MissingColumns exactly when a report column is missing after renaming, and otherwise with DuplicateColumns exactly when two headers rename to the amount or to the quantity column; on success the row count is kept and each row is normalised from its record, in order |
| Rows.ExportHeaderAccepted | newgstjson.py:38-46 | a sheet with the marketplace export's own headers passes the renaming and projection |
| Rows.QuantityRequired | newgstjson.py:106 | every sheet none of whose headers renames to the quantity column is refused with MissingColumns; the export's own header without its last column is one such sheet |
| Rows.DoubledNumericRefused | newgstjson.py:103-110 | a sheet with every report column but two headers renaming to the amount or to the quantity column is refused with DuplicateColumns; the export's own header plus a "QTY" header is one |
| Rows.RenamedCount | newgstjson.py:103-106 | the number of headers renaming to a name is positive exactly when the sheet has that column, and never more than the headers |
| Rows.Combine | newgstjson.py:428-442 | the merged length is sales + returns (0 returns when absent); the first rows are the sales rows normalised as Sale, the rest the returns rows normalised as Return |
| Rows.CombinedSigns | newgstjson.py:442 | every merged row obeys the sign convention, and a row is a Sale exactly when it comes before the returns |
| Rows.MapState | newgstjson.py:445-446 | a text cell gets exactly the code its text resolves to and any other cell ""; the code is "" or well-formed, and non-empty only for a text cell whose title-casing is a key |
| Rows.NonTextNeverResolves | newgstjson.py:445 | a blank cell ("nan") or a number rendered as text never resolves |
| Rows.MapStateVariantsAgree | GSTJSON.py:295-296 | the text-first lookup of the newest script and the direct `.str.title()` lookup of the others give every cell the same code |
| Rows.MapStates | newgstjson.py:446 | one mapped row per row, in order and with the row kept; each `J_mapped` is that row's state cell mapped the script's way |
| Tax.Split | newgstjson.py:134-145 | CGST = SGST; intra: IGST 0 and CGST = tax/2; inter: CGST = SGST = 0 and IGST = tax; total tax = amount·rate/100; total value = amount + total tax; NaN amounts give NaN in the charged columns |
| Tax.TaxedFromUnique | newgstjson.py:134-145 | the closed form determines every column of the split row |
| Tax.NonNumericRateIsUntaxed | newgstjson.py:134 | a rate that is not a number becomes 0, so no tax is charged and the total value is the amount |
| Tax.ApplyTax | newgstjson.py:122-147 | one taxed row per merged row, each split by whether the rule finds it intra-state |
| Tax.UnresolvedIsInterState | newgstjson.py:129-132 | an unresolved code "" is never intra-state, under either rule, when the supplier code is non-empty |
| Tax.RulesAgree | messogstreturnv1.py:132 | on every code the state mapping can produce, comparing the first two characters with "27" and comparing the whole code with "27-Maharashtra" agree |
| Tax.SplitExample | newgstjson.py:136-145 | 1000 at 18% is 90 + 90 within the state and 180 IGST outside it, 1180 in total either way |
| Grouping.Keys | newgstjson.py:212 | the distinct keys: no repeats, every row's key is among them, each occurs in some row |
| Grouping.GroupBy | newgstjson.py:234-241 | exactly one bucket per distinct key, each bucket holding the column sums of its rows, and every column total preserved |
| Grouping.OccursInBuckets | newgstjson.py:234-241 | a key has a bucket exactly when it is one of the keys grouped by |
| Grouping.BucketsAddLast | newgstjson.py:234-241 | one more row adds its sums to exactly the bucket of its key |
| Grouping.GroupByPreservesTotal | newgstjson.py:234-241 | summing the buckets gives the sums over all rows, column by column |
| Grouping.SumForVanishes | newgstjson.py:283-285 | a column that is zero on every row of a key is zero in its bucket |
| Summaries.B2csCsv | GSTJSON.py:157-176 | every line has Type "OE"; the lines' (place of supply, rate) pairs are distinct and are exactly the pairs the rows carry; each line's taxable value is the sum over the rows of its pair; the taxable values add up to the total row amount |
| Summaries.HsnSummary | newgstjson.py:231-264 | no more lines than rows; the lines' (HSN, rate) keys are distinct and are exactly the keys the rows carry; each line's sums are those of its rows; column totals preserved; UQC per script |
| Summaries.GroupBySize | newgstjson.py:234-241 | grouping never yields more buckets than rows |
| Summaries.RowBalanced | GSTJSON.py:146-147 | a taxed row's value equals its taxable value plus its three taxes, and CGST = SGST |
| Summaries.HsnLinesBalanced | GSTJSON.py:184-191 | in every HSN line, summed total value = summed taxable + IGST + CGST + SGST, and summed CGST = summed SGST |
| Summaries.Trunc | newgstjson.py:299 | `int()` truncates toward zero, within 1 of its argument |
| Summaries.KeptOf | newgstjson.py:283-285 | the kept buckets in their order: a bucket is among them exactly when it is one of the buckets and its taxable value is not within 0.005 of 0 |
| Summaries.B2csEntries | newgstjson.py:275-308 | one entry per kept bucket, in bucket order: entry k is the object of the k-th kept bucket; `pos` is at most two characters; `sply_ty` is INTRA iff `pos` equals the supplier code |
| Summaries.SupplyTypeMatchesTax | newgstjson.py:280-294 | an INTRA entry carries no IGST and an INTER entry no CGST or SGST, because every row of a bucket was taxed by the same code |
| Summaries.ListedOf | newgstjson.py:324 | a bucket is kept exactly when its HSN is not blank and its rate is above 0 |
| Summaries.NumberHsn | newgstjson.py:320-340 | the loop emits the listed buckets in order, numbered 1, 2, 3, ... with no gaps, and its list is the recursive reference `HsnEntries` |
| Summaries.HsnEntries | newgstjson.py:320-340 | the functional reference: entry k is the k-th listed bucket numbered k+1, and every listed bucket has its entry |
| Summaries.NumberHsnMatches | newgstjson.py:320-340 | the loop's output is the reference list |
| Summaries.B2csEntriesOfRows | newgstjson.py:275-308 | the `b2cs` list holds exactly the entries of the kept buckets of the rows' (place of supply, rate) keys |
| Summaries.HsnEntriesOfRows | newgstjson.py:320-340 | apart from their numbers, the `hsn_b2c` entries are exactly those of the listed buckets of the rows' (HSN, rate) keys |
| Summaries.Gstr1Of | newgstjson.py:344-354 | the payload carries the GSTIN, fp, version "GST3.2.3" and hash "hash"; `b2cs` holds exactly the entries of the kept (place of supply, rate) buckets of the rows; `hsn_b2c` holds those of the listed (HSN, rate) buckets, numbered consecutively, with non-blank codes; `sply_ty` follows the supplier code |
| Header.ReadHeader | newgstjson.py:396-417 | success exactly when the GSTIN is present, non-empty (and 15 characters in the newest script) and month and year are truthy; the newest script reports InvalidGstin then PeriodMissing, the middle one HeaderCellsMissing; the month is the month cell as text zero-filled to two places, the year the year cell as text with "20" put before a two-character year; fp = month + year; the filename is built from GSTIN, month and year; the supplier code is the first two characters of the GSTIN |
| Header.StrictImpliesLenient | GSTJSON.py:264-278 | the middle script accepts every header the newest accepts, with the same period |
| Header.SupplierCodeLength | newgstjson.py:402-417 | an accepted header gives a non-empty supplier code, two characters under the 15-character check |
| Header.PeriodOfTwoDigitYear | newgstjson.py:410-415 | month m and two-digit year y give fp = MM + "20" + y, six characters |
| Header.PeriodOfFourDigitYear | newgstjson.py:410-415 | month m and four-digit year y give fp = MM + y, six characters |
| Header.TwoDigitYearTextOrNumber | GSTJSON.py:270-272 | a two-digit year written as text or as a number expands alike |
| Header.ReportFilenameInjective | newgstjson.py:416 | with equal-length GSTINs and months, the filename determines GSTIN, month and year |
| Header.Latest | messogstreturnv1.py:259-262 | none exactly when no date parsed; otherwise one of the dates, and no parsed date is later |
| Header.LatestDate | messogstreturnv1.py:260 | the one-pass scan finds the latest date |
| Header.DatedFilename | messogstreturnv1.py:262-268 | the fallback name exactly when no date parsed; otherwise a 33-character name that starts with the placeholder GSTIN and "_" and ends in "_GSTR1.xlsx" |
| Header.DatedFilenameNamesMonth | messogstreturnv1.py:264-266 | two latest dates give the same filename exactly when they share month and year |
| Archive.LastOf | GSTJSON.py:232-237 | none exactly when no entry has the role; otherwise an entry of the role after which no entry has it |
| Archive.Classify | GSTJSON.py:231-237 | the extraction loop keeps the last sales and the last returns entry |
| Archive.SalesReturnIsReturns | GSTJSON.py:234-236 | every workbook name mentioning "return" or "rtn" is the returns workbook whatever else it mentions, so "sales_return.xlsx" is the returns workbook |
| Archive.RoleIgnoresCaseOfWords | newgstjson.py:375-378 | two names that lower-case alike and pass the extension test alike get the same role; the extension test is case-sensitive, so "RTN_sales.xls" is the returns workbook and "returns.XLSX" is ignored |
| Archive.PresentUnlessEmpty | messogstreturnv1.py:234 | an empty entry counts as missing in the two newer scripts and as present in the oldest |
| Pipeline.ProcessBoth | GSTJSON.py:285-292 | success only with readable workbooks; the merged length is the sum of both sheets' rows; sign convention and sales-first order hold |
| Pipeline.IntakeNewGst | newgstjson.py:384-439 | succeeds exactly when the sales workbook is present, readable with every report column and the header passes the strict check, and any present returns workbook is readable too; a missing sales workbook stops with SalesFileMissing; on success the period is what the strict check reads, its supplier code has two characters, and the merge is `Combine` of the sales sheet and any present returns sheet |
| Pipeline.IntakeOlder | GSTJSON.py:242-290 | succeeds exactly when both workbooks are present and readable with every report column and, in the middle script, the header passes the lenient check; a missing sales or returns workbook stops with SalesOrReturnsMissing; on success the merge is `Combine` of the two sheets; the middle script's period is what the lenient check reads, and the oldest reads none |
| Pipeline.Report | newgstjson.py:444-462 | succeeds exactly when the template arrived; merged row i is input row i with its state mapped the script's way; every taxed row is split by the run's rule; the B2CS and HSN summaries are those of the taxed table; column J repeats `J_mapped`, read by label as in the older scripts (see Findings); the JSON, from the newest script only, is the payload of the header's period and the taxed table; the filename is the header's or the one from the latest order date |
| Pipeline.Run | newgstjson.py:363-474 | succeeds exactly when the intake can (the mandatory workbooks present and readable, the header accepted) and the template arrived; on success the merge is `Combine` of the sheets; the period is what the script's header check reads from the sales workbook (none in the oldest script); the intra rule is the period's supplier prefix, or code 27 in the oldest script; the filename is the period's, or the one from the latest order date; each row's `J_mapped` is its state mapped the script's way and its tax split by that rule; the summaries and the JSON are those of the taxed table |
| Pipeline.Assemble | newgstjson.py:449-462 | from a mapped table: each row's tax split by the rule, column J, both summaries of the taxed table and, in the newest script with a header, the payload |
| Pipeline.ColumnPosition | newgstjson.py:188 | `get_loc`: a position holding the name, with no earlier column of that name |
| Pipeline.ColumnJ | newgstjson.py:184-191 | column J is read back exactly when the table is empty or `.loc` finds the column, failing with ColumnNotFound otherwise; the values read are the rows' `J_mapped`, in order |
| Pipeline.ColumnJLookups | newgstjson.py:177-188 | `J_mapped` is position 8 of the merged table; the newest script's lookup into the eight-column copy does not find it, while the older scripts' label lookup does |
| Pipeline.ReportAsWritten | newgstjson.py:176-191 | with the lookups as written, succeeds exactly when the template arrived and the script is an older one or the table is empty; with the template at hand it can only fail with ColumnNotFound; on success it is `Report` |
| Pipeline.RunAsWritten | newgstjson.py:363-474 | the whole run as written: in the older scripts it is `Run`; in the newest it succeeds exactly when `Run` does with an empty merged table |
| Pipeline.ColumnJKeyError | newgstjson.py:186-188 | with the template at hand and at least one merged row, the newest script as written fails with ColumnNotFound while `Report` succeeds |
| Pipeline.ReturnsOptionalOnlyInNewGst | GSTJSON.py:242-244 | without a returns workbook the older scripts stop with SalesOrReturnsMissing, while the newest succeeds exactly when the template arrived and the sales workbook is present, readable and its header accepted, and then holds the sales rows alone |
| Pipeline.UnresolvedRowsPayIgst | newgstjson.py:129-145 | in every script and for any header, a row whose state did not resolve is charged as inter-state once the reports are built |
| Pipeline.TemplateRequired | messogstreturnv1.py:271-273 | without the template no script produces anything |

## Left out

- Streamlit UI, session state, download buttons and messages: presentation only.
- ZIP reading, `pd.read_excel`, `load_workbook` and the template download are left out as I/O:
  - an entry's content is given as `Empty`, `Unreadable` or a workbook with its header cells and data sheet;
  - the download is a boolean input.
- Sheet headers are taken as `pd.read_excel` yields them, after it has renamed repeated headers to "name.1".
- Rows.ProcessFile: two headers renaming to a report column other than the amount or the quantity (for example both "sub_order_num" and "order_num") are accepted. The source keeps both columns and fails later, outside `process_file`, in the state, tax or grouping step with an uncaught error; that is not modelled.
- Whether openpyxl can open a given format (for example `.xls`) is part of the `Unreadable` abstraction and is not derived from the name.
- The header cells and the data sheet are given separately; the model does not tie cell C2 to the data sheet's rows.
- CSV, Excel and JSON serialisation (`to_csv`, `to_excel`, `json.dumps`) are not modelled; the reports are records.
- The combo workbook is not modelled beyond column J (`Pipeline.ColumnJ`): template cell clearing, columns A-I and the K-O formula strings are Excel formatting, not computation.
- Floating point is not modelled: `round(..., 2)`, `round(..., 3)` and accumulation error are absent, because amounts are exact reals.
- Summaries.Trunc: models `int(rate)` on an exact real, with no float conversion.
- Dates come pre-parsed: `pd.to_datetime` parsing is not modelled, and each date is a pre-parsed optional (year, month, day) within pandas' timestamp range.
- Time of day is not modelled, so `max` compares calendar dates only.
- Floating-point spreadsheet cells are not modelled: a month or year cell holding `3.0` would render as "3.0".
- Unicode is not modelled: `str.title`, `lower` and `strip` are modelled on ASCII only.
- Grouping.GroupBy: buckets come in first-appearance order; pandas sorts them by key, and the order is not modelled.
- Summaries.HsnSummary: rows whose HSN cell is NaN stay in the model, although pandas `groupby` drops NaN keys. The HSN code is kept as text, and its cell type is not modelled.
- Summaries.HsnEntries: `hsn_sc` is the bucket's HSN text. `str(int(hsn))` and the `ValueError` it raises on non-numeric text are not modelled.
- Summaries.B2csCsv: the constant columns are not modelled (blank applicable rate, cess, e-commerce GSTIN). Neither is the cess column of the two older scripts, which is written as "" instead of 0.0.
- The HSN description is not modelled, nor are the `desc`, `uqc` and `csamt` JSON constants.
- A `.str.title()` on a state column that holds no text at all raises `AttributeError` in the two older scripts and is not modelled. The model treats every non-text cell as unresolved.
- `messogst.py` is not part of this model: it is an import-less fragment that only extracts the archive and copies cells.
- Pipeline.ReportAsWritten: the `KeyError` of the newest script is uncaught in the source and ends the run with a traceback; the model returns it as the error ColumnNotFound.

## Findings

| source | as written | input that shows it | evidently intended | confidence | as-written member | corrected member |
|---|---|---|---|---|---|---|
| newgstjson.py:186-188 | `write_df.loc[r, df_merged.columns.get_loc("J_mapped")]`: the integer position 8 of `J_mapped` in the merged table is used as a label of `write_df`, whose eight columns are the names in `WRITE_COL_ORDER` | any archive whose merged table has at least one row, with the template downloaded | `df_merged.loc[r, "J_mapped"]`, as GSTJSON.py:333 and messogstreturnv1.py:297 write it | high; not executed | Pipeline.ReportAsWritten, Pipeline.RunAsWritten, Pipeline.ColumnJKeyError | Pipeline.Report, Pipeline.Run |

=== FILE: archive.dfy ===
/** Picking the two workbooks out of the uploaded ZIP archive. Every entry
    whose name ends in ".xlsx" or ".xls" is classified by the words in its
    lower-cased name: "return" or "rtn" marks the returns workbook (even when
    the name also says "sale"); otherwise "sale", "sls" or "invoice" marks
    the sales workbook. A later entry of the same role replaces an earlier
    one. */
module Archive {
  import opened Basics
  import opened Strings
  import opened Rows
  import opened Header

  /** What an entry's bytes turn out to hold: nothing at all, something the
      spreadsheet readers cannot open, or a workbook with its header cells
      and its data sheet. */
  datatype Content = Empty | Unreadable | Workbook(header: HeaderCells, sheet: Sheet)

  /** One member of the archive. */
  datatype Entry = Entry(name: string, content: Content)

  datatype Role = SalesRole | ReturnsRole | Ignored

  /** `name.endswith((".xlsx", ".xls"))`; the test is case-sensitive. */
  predicate IsWorkbookName(name: string) {
    EndsWith(name, ".xlsx") || EndsWith(name, ".xls")
  }

  /** The role the classification loop gives an entry name. */
  function RoleOf(name: string): Role {
    var l := Lower(name);
    if !IsWorkbookName(name) then Ignored
    else if Contains(l, "return") || Contains(l, "rtn") then ReturnsRole
    else if Contains(l, "sale") || Contains(l, "sls") || Contains(l, "invoice") then SalesRole
    else Ignored
  }

  /** The role of an archive entry, by its name. */
  function EntryRole(e: Entry): Role {
    RoleOf(e.name)
  }

  /** Item `k` has the role and no later item has it. */
  predicate LastWith<T>(xs: seq<T>, roleOf: T -> Role, role: Role, k: int) {
    && 0 <= k < |xs|
    && roleOf(xs[k]) == role
    && forall j :: k < j < |xs| ==> roleOf(xs[j]) != role
  }

  /** The reference meaning of the loop: the last item of a role, or none
      when no item has it. */
  function LastOf<T>(xs: seq<T>, roleOf: T -> Role, role: Role): (e: Option<T>)
    ensures e.None? <==> forall i :: 0 <= i < |xs| ==> roleOf(xs[i]) != role
    ensures e.Some? ==> exists k :: LastWith(xs, roleOf, role, k) && xs[k] == e.value
    decreases |xs|
  {
    if |xs| == 0 then None
    else
      var init := xs[..|xs| - 1];
      var last := xs[|xs| - 1];
      assert xs == init + [last];
      if roleOf(last) == role then
        assert LastWith(xs, roleOf, role, |xs| - 1);
        Some(last)
      else
        var e := LastOf(init, roleOf, role);
        LastOfExtends(init, last, roleOf, role, e);
        e
  }

  /** Appending an item of another role keeps the last item of a role. */
  lemma LastOfExtends<T>(init: seq<T>, last: T, roleOf: T -> Role, role: Role, e: Option<T>)
    requires roleOf(last) != role
    requires e.None? <==> forall i :: 0 <= i < |init| ==> roleOf(init[i]) != role
    requires e.Some? ==> exists k :: LastWith(init, roleOf, role, k) && init[k] == e.value
    ensures e.None? <==> forall i :: 0 <= i < |init + [last]| ==> roleOf((init + [last])[i]) != role
    ensures e.Some? ==> exists k :: LastWith(init + [last], roleOf, role, k) && (init + [last])[k] == e.value
  {
    var xs := init + [last];
    assert forall i :: 0 <= i < |init| ==> xs[i] == init[i];
    if e.Some? {
      var k :| LastWith(init, roleOf, role, k) && init[k] == e.value;
      assert LastWith(xs, roleOf, role, k);
    }
  }

  /** The extraction loop over `z.namelist()`: the sales and the returns
      entry it ends up holding. */
  method Classify(entries: seq<Entry>) returns (sold: Option<Entry>, refunds: Option<Entry>)
    ensures sold == LastOf(entries, EntryRole, SalesRole)
    ensures refunds == LastOf(entries, EntryRole, ReturnsRole)
  {
    sold, refunds := None, None;
    for i := 0 to |entries|
      invariant sold == LastOf(entries[..i], EntryRole, SalesRole)
      invariant refunds == LastOf(entries[..i], EntryRole, ReturnsRole)
    {
      assert entries[..i + 1][..i] == entries[..i];
      var role := EntryRole(entries[i]);
      if role == ReturnsRole {
        refunds := Some(entries[i]);
      } else if role == SalesRole {
        sold := Some(entries[i]);
      }
    }
    assert entries[..|entries|] == entries;
  }

  /** `p` occurs in `s` at position `k`. */
  lemma {:induction false} ContainsAt(s: string, p: string, k: nat)
    requires k + |p| <= |s| && s[k..k + |p|] == p
    ensures Contains(s, p)
    decreases k
  {
    if k > 0 {
      assert s[1..][k - 1..k - 1 + |p|] == p;
      ContainsAt(s[1..], p, k - 1);
    }
  }

  /** A workbook name that mentions "return" or "rtn" is the returns
      workbook whatever else it mentions, "sale" included; so
      "sales_return.xlsx" is the returns workbook. */
  lemma SalesReturnIsReturns(name: string)
    requires IsWorkbookName(name)
    requires Contains(Lower(name), "return") || Contains(Lower(name), "rtn")
    ensures RoleOf(name) == ReturnsRole
    ensures RoleOf("sales_return.xlsx") == ReturnsRole
  {
    var l := Lower("sales_return.xlsx");
    assert l == "sales_return.xlsx";
    ContainsAt(l, "return", 6);
  }

  /** The words are matched whatever the case of their letters: two names
      that lower-case alike and pass the extension test alike get the same
      role. The extension test itself is case-sensitive, so "RTN_sales.xls"
      is the returns workbook while "returns.XLSX" is ignored. */
  lemma RoleIgnoresCaseOfWords(a: string, b: string)
    requires Lower(a) == Lower(b) && IsWorkbookName(a) == IsWorkbookName(b)
    ensures RoleOf(a) == RoleOf(b)
    ensures RoleOf("RTN_sales.xls") == ReturnsRole
    ensures RoleOf("returns.XLSX") == Ignored
  {
    assert Lower("RTN_sales.xls") == "rtn_sales.xls";
    ContainsAt("rtn_sales.xls", "rtn", 0);
    assert !EndsWith("returns.XLSX", ".xlsx") && !EndsWith("returns.XLSX", ".xls");
  }

  /** Whether a script sees a classified entry as present. The two scripts
      that read the bytes (`z.read`) test them, so an empty entry counts as
      missing; the oldest holds an open file handle (`z.open`), which is
      always truthy. */
  predicate Present(variant: Variant, e: Option<Entry>) {
    e.Some? && (variant == MessoV1 || !e.value.content.Empty?)
  }

  /** Presence is the same test in every script except for an empty entry. */
  lemma PresentUnlessEmpty(variant: Variant, e: Entry)
    ensures Present(variant, Some(e)) <==> variant == MessoV1 || !e.content.Empty?
    ensures !Present(variant, None)
  {
  }
}

=== FILE: basics.dfy ===
/** Failure-carrying wrappers shared by every stage of the GSTR-1 generator,
    and the run's error taxonomy. */
module Basics {

  /** An optional value. For numeric cells, `None` stands for the NaN that
      pandas produces when a value cannot be coerced to a number. */
  datatype Option<+T> = None | Some(value: T) {

    /** The carried value, or `default` when there is none (pandas `fillna`). */
    function GetOr(default: T): T {
      match this
      case Some(v) => v
      case None => default
    }
  }

  /** Either the run's product or the reason it was abandoned. */
  datatype Result<+R, +E> = Success(value: R) | Failure(error: E) {

    predicate IsFailure() {
      Failure?
    }

    function PropagateFailure<U>(): Result<U, E>
      requires Failure?
    {
      Failure(error)
    }

    function Extract(): R
      requires Success?
    {
      value
    }
  }

  /** Why a run stops before producing any report. Each corresponds to one
      error message of the scripts; none is retried. */
  datatype Error =
    | SalesFileMissing         // newest script: no sales workbook in the archive
    | SalesOrReturnsMissing    // older scripts: both workbooks are mandatory
    | InvalidGstin             // newest script: GSTIN cell empty or not 15 characters
    | PeriodMissing            // newest script: month or year cell empty
    | HeaderCellsMissing       // GSTIN, month or year cell empty (no length check)
    | MissingColumns           // a projected column is absent after renaming
    | DuplicateColumns         // two headers rename to the amount or the quantity column
    | UnreadableWorkbook       // an entry the spreadsheet readers cannot open
    | TemplateUnavailable      // the reference workbook could not be fetched
    | ColumnNotFound           // `.loc` raised KeyError while filling the combo workbook

  /** The three copies of the generator. They share the transformation core
      and differ in a few rules, each documented where it is modelled. */
  datatype Variant =
    | NewGst     // newgstjson.py: optional returns, GSTIN-prefix rule, JSON output
    | GstJson    // GSTJSON.py: both workbooks mandatory, GSTIN-prefix rule
    | MessoV1    // messogstreturnv1.py: fixed supplier state, filename from order dates

  /** Absolute value on exact rationals. */
  function Abs(x: real): real {
    if x < 0.0 then -x else x
  }
}

=== FILE: grouping.dfy ===
/** The group-and-sum step every summary shares, `df.groupby(keys).agg(sum)`:
    one bucket per distinct key, holding the column sums of the rows that
    carry that key. Keys are generic; the summed columns are gathered in one
    `Totals` record so that a single theorem covers every column. */
module Grouping {

  /** The summable columns of a taxed row. */
  datatype Totals = Totals(qty: real, taxable: real, value: real, igst: real, cgst: real, sgst: real)

  const Zero: Totals := Totals(0.0, 0.0, 0.0, 0.0, 0.0, 0.0)

  /** Column-wise addition. */
  function Plus(a: Totals, b: Totals): Totals {
    Totals(a.qty + b.qty, a.taxable + b.taxable, a.value + b.value,
           a.igst + b.igst, a.cgst + b.cgst, a.sgst + b.sgst)
  }

  /** The column sums over a whole list of keyed rows (or of buckets). */
  function Total<K>(es: seq<(K, Totals)>): Totals
    decreases |es|
  {
    if |es| == 0 then Zero else Plus(Total(es[..|es| - 1]), es[|es| - 1].1)
  }

  /** The column sums over the rows carrying key `k`: the reference meaning
      of a bucket. */
  function SumFor<K(==)>(es: seq<(K, Totals)>, k: K): Totals
    decreases |es|
  {
    if |es| == 0 then Zero
    else Plus(SumFor(es[..|es| - 1], k), if es[|es| - 1].0 == k then es[|es| - 1].1 else Zero)
  }

  /** Some row carries key `k`. */
  predicate Occurs<K(==)>(es: seq<(K, Totals)>, k: K)
    decreases |es|
  {
    |es| > 0 && (es[|es| - 1].0 == k || Occurs(es[..|es| - 1], k))
  }

  /** The distinct keys of a list of rows, in order of first appearance. */
  function Keys<K(==)>(es: seq<(K, Totals)>): (ks: seq<K>)
    ensures forall i, j :: 0 <= i < j < |ks| ==> ks[i] != ks[j]
    ensures forall i :: 0 <= i < |es| ==> es[i].0 in ks
    ensures forall j :: 0 <= j < |ks| ==> Occurs(es, ks[j])
    decreases |es|
  {
    if |es| == 0 then []
    else
      var init := es[..|es| - 1];
      var ks := Keys(init);
      assert forall i :: 0 <= i < |init| ==> init[i] == es[i];
      if es[|es| - 1].0 in ks then ks else ks + [es[|es| - 1].0]
  }

  /** One bucket per key of `ks`, each with the sums of its rows. */
  function Buckets<K(==)>(ks: seq<K>, es: seq<(K, Totals)>): seq<(K, Totals)>
    decreases |ks|
  {
    if |ks| == 0 then [] else Buckets(ks[..|ks| - 1], es) + [(ks[|ks| - 1], SumFor(es, ks[|ks| - 1]))]
  }

  /** `groupby(...).agg(sum)`: the buckets of the distinct keys. */
  function GroupBy<K(==)>(es: seq<(K, Totals)>): (gs: seq<(K, Totals)>)
    ensures forall i, j :: 0 <= i < j < |gs| ==> gs[i].0 != gs[j].0
    ensures forall i :: 0 <= i < |es| ==> Occurs(gs, es[i].0)
    ensures forall j :: 0 <= j < |gs| ==> Occurs(es, gs[j].0)
    ensures forall j :: 0 <= j < |gs| ==> gs[j].1 == SumFor(es, gs[j].0)
    ensures Total(gs) == Total(es)
  {
    GroupByBuckets(es);
    GroupByCovers(es);
    GroupByPreservesTotal(es);
    Buckets(Keys(es), es)
  }

  /** Each bucket's key is distinct and its totals are the sums of its rows. */
  lemma GroupByBuckets<K>(es: seq<(K, Totals)>)
    ensures var gs := Buckets(Keys(es), es);
      && (forall i, j :: 0 <= i < j < |gs| ==> gs[i].0 != gs[j].0)
      && (forall j :: 0 <= j < |gs| ==> gs[j].1 == SumFor(es, gs[j].0))
      && (forall j :: 0 <= j < |gs| ==> Occurs(es, gs[j].0))
  {
    BucketsShape(Keys(es), es);
  }

  /** Every row lands in some bucket. */
  lemma GroupByCovers<K>(es: seq<(K, Totals)>)
    ensures forall i :: 0 <= i < |es| ==> Occurs(Buckets(Keys(es), es), es[i].0)
  {
    forall i | 0 <= i < |es|
      ensures Occurs(Buckets(Keys(es), es), es[i].0)
    {
      OccursInBuckets(Keys(es), es, es[i].0);
    }
  }

  /** A key has a bucket exactly when it is one of the keys grouped by. */
  lemma {:induction false} OccursInBuckets<K>(ks: seq<K>, es: seq<(K, Totals)>, k: K)
    ensures Occurs(Buckets(ks, es), k) <==> k in ks
    decreases |ks|
  {
    if |ks| > 0 {
      var init := ks[..|ks| - 1];
      OccursInBuckets(init, es, k);
      var b := Buckets(ks, es);
      assert b[..|b| - 1] == Buckets(init, es);
      assert k in ks <==> k in init || k == ks[|ks| - 1];
    }
  }

  lemma {:induction false} BucketsShape<K>(ks: seq<K>, es: seq<(K, Totals)>)
    ensures |Buckets(ks, es)| == |ks|
    ensures forall j :: 0 <= j < |ks| ==> Buckets(ks, es)[j] == (ks[j], SumFor(es, ks[j]))
    decreases |ks|
  {
    if |ks| > 0 {
      BucketsShape(ks[..|ks| - 1], es);
    }
  }

  /** A key some row carries is among the distinct keys. */
  lemma {:induction false} OccursInKeys<K>(es: seq<(K, Totals)>, k: K)
    ensures Occurs(es, k) ==> k in Keys(es)
    decreases |es|
  {
    if |es| > 0 {
      OccursInKeys(es[..|es| - 1], k);
    }
  }

  /** A key no row carries sums to zero. */
  lemma {:induction false} SumForAbsent<K>(es: seq<(K, Totals)>, k: K)
    requires !Occurs(es, k)
    ensures SumFor(es, k) == Zero
    decreases |es|
  {
    if |es| > 0 {
      SumForAbsent(es[..|es| - 1], k);
    }
  }

  /** Adding one row to the input adds its totals to exactly the bucket of
      its key, when that key is among the (distinct) keys summed over. */
  lemma {:induction false} BucketsAddLast<K>(ks: seq<K>, es: seq<(K, Totals)>)
    requires |es| > 0
    requires forall i, j :: 0 <= i < j < |ks| ==> ks[i] != ks[j]
    ensures Total(Buckets(ks, es)) ==
            Plus(Total(Buckets(ks, es[..|es| - 1])), if es[|es| - 1].0 in ks then es[|es| - 1].1 else Zero)
    decreases |ks|
  {
    if |ks| > 0 {
      var init := ks[..|ks| - 1];
      BucketsAddLast(init, es);
      var b := Buckets(ks, es);
      var b' := Buckets(ks, es[..|es| - 1]);
      assert b[..|b| - 1] == Buckets(init, es);
      assert b'[..|b'| - 1] == Buckets(init, es[..|es| - 1]);
      assert es[|es| - 1].0 in ks <==> es[|es| - 1].0 in init || es[|es| - 1].0 == ks[|ks| - 1];
    }
  }

  /** Grouping preserves every column total: the buckets' sums add up to the
      sums over all rows. */
  lemma {:induction false} GroupByPreservesTotal<K>(es: seq<(K, Totals)>)
    ensures Total(Buckets(Keys(es), es)) == Total(es)
    decreases |es|
  {
    if |es| > 0 {
      var init := es[..|es| - 1];
      var x := es[|es| - 1];
      var ks := Keys(init);
      GroupByPreservesTotal(init);
      BucketsAddLast(ks, es);
      if x.0 !in ks {
        OccursInKeys(init, x.0);
        SumForAbsent(init, x.0);
        var b := Buckets(ks + [x.0], es);
        assert (ks + [x.0])[..|ks|] == ks;
        assert b[..|b| - 1] == Buckets(ks, es);
        assert Keys(es) == ks + [x.0];
      }
    }
  }

  /** An index at which an occurring key is found. */
  lemma {:induction false} OccursAt<K>(es: seq<(K, Totals)>, k: K) returns (j: nat)
    requires Occurs(es, k)
    ensures j < |es| && es[j].0 == k
    decreases |es|
  {
    if es[|es| - 1].0 == k {
      j := |es| - 1;
    } else {
      j := OccursAt(es[..|es| - 1], k);
    }
  }

  /** The bucket a row belongs to: its key with the sums of all rows of
      that key. */
  function BucketOfRow<K(==)>(es: seq<(K, Totals)>, i: nat): (K, Totals)
    requires i < |es|
  {
    (es[i].0, SumFor(es, es[i].0))
  }

  /** Every row's bucket is among the buckets of `GroupBy`. */
  lemma RowHasBucket<K>(es: seq<(K, Totals)>, i: nat) returns (j: nat)
    requires i < |es|
    ensures j < |GroupBy(es)| && GroupBy(es)[j] == BucketOfRow(es, i)
  {
    j := OccursAt(GroupBy(es), es[i].0);
  }

  /** Every bucket of `GroupBy` is the bucket of some row. */
  lemma BucketHasRow<K>(es: seq<(K, Totals)>, j: nat) returns (i: nat)
    requires j < |GroupBy(es)|
    ensures i < |es| && BucketOfRow(es, i) == GroupBy(es)[j]
  {
    i := OccursAt(es, GroupBy(es)[j].0);
  }

  /** The summed columns, for stating facts about one column at a time. */
  datatype Column = Qty | Taxable | Value | Igst | Cgst | Sgst

  function Get(t: Totals, c: Column): real {
    match c
    case Qty => t.qty
    case Taxable => t.taxable
    case Value => t.value
    case Igst => t.igst
    case Cgst => t.cgst
    case Sgst => t.sgst
  }

  /** A column that is zero on every row of a key is zero in its bucket. */
  lemma {:induction false} SumForVanishes<K>(es: seq<(K, Totals)>, k: K, c: Column)
    requires forall i :: 0 <= i < |es| && es[i].0 == k ==> Get(es[i].1, c) == 0.0
    ensures Get(SumFor(es, k), c) == 0.0
    decreases |es|
  {
    if |es| > 0 {
      var init := es[..|es| - 1];
      assert forall i :: 0 <= i < |init| ==> init[i] == es[i];
      SumForVanishes(init, k, c);
    }
  }
}

=== FILE: header.dfy ===
/** The reporting configuration. The two newer scripts read it from three
    header cells of the sales workbook: the supplier GSTIN (C2), the month
    (P2) and the year (O2). From those they derive the filing period `fp`,
    the report filename and the supplier's two-character state code. The
    oldest script reads no header: it names its report after the latest
    order date of the merged table. */
module Header {
  import opened Basics
  import opened Strings
  import opened Rows

  /** The cells C2, P2 and O2 of the sales workbook's active sheet. */
  datatype HeaderCells = HeaderCells(gstin: Cell, month: Cell, year: Cell)

  /** What the header yields: the stripped GSTIN, the two-character month,
      the expanded year, the filing period, the report filename and the
      supplier code compared against by the tax splitter. */
  datatype Period = Period(
    gstin: string,
    month: string,
    year: string,
    fp: string,
    filename: string,
    supplierCode: string)

  /** How the header is validated: the newest script insists on a
      15-character GSTIN and reports GSTIN and period problems apart; the
      middle one only asks that the three cells be non-empty. */
  datatype HeaderRule = Strict | Lenient

  function HeaderRuleOf(variant: Variant): HeaderRule {
    if variant == NewGst then Strict else Lenient
  }

  /** `str(C2).strip()`, or nothing when the cell is empty. */
  function GstinOf(c: Cell): Option<string> {
    if c.Blank? then None else Some(Strip(Str(c)))
  }

  /** `str(P2).zfill(2)`. */
  function MonthText(month: Cell): string {
    ZFill(Str(month), 2)
  }

  /** `str(O2)`, with "20" put in front of a two-character year. */
  function YearText(year: Cell): string {
    var s := Str(year);
    if |s| == 2 then "20" + s else s
  }

  /** `f"{gstin}_{month}_{year}_GSTR1.xlsx"`. */
  function ReportFilename(gstin: string, month: string, year: string): string {
    gstin + "_" + month + "_" + year + "_GSTR1.xlsx"
  }

  /** The GSTIN passes the rule's check. */
  predicate GstinAccepted(rule: HeaderRule, gstin: Option<string>) {
    gstin.Some? && gstin.value != "" && (rule == Strict ==> |gstin.value| == 15)
  }

  /** Header extraction: validation, then the derived period. */
  function ReadHeader(rule: HeaderRule, h: HeaderCells): (r: Result<Period, Error>)
    ensures r.Success? <==> GstinAccepted(rule, GstinOf(h.gstin)) && Truthy(h.month) && Truthy(h.year)
    ensures rule == Strict && !GstinAccepted(rule, GstinOf(h.gstin)) ==> r == Failure(InvalidGstin)
    ensures rule == Strict && GstinAccepted(rule, GstinOf(h.gstin)) && r.Failure? ==> r == Failure(PeriodMissing)
    ensures rule == Lenient && r.Failure? ==> r == Failure(HeaderCellsMissing)
    ensures r.Success? ==>
      && GstinOf(h.gstin) == Some(r.value.gstin)
      && r.value.month == MonthText(h.month)
      && r.value.year == YearText(h.year)
      && r.value.fp == r.value.month + r.value.year
      && r.value.filename == ReportFilename(r.value.gstin, r.value.month, r.value.year)
      && |r.value.month| >= 2
      && StartsWith(r.value.gstin, r.value.supplierCode)
      && |r.value.supplierCode| == (if |r.value.gstin| < 2 then |r.value.gstin| else 2)
  {
    var gstin := GstinOf(h.gstin);
    var checked: Result<string, Error> := match rule
      case Strict =>
        if !GstinAccepted(rule, gstin) then Failure(InvalidGstin)
        else if !(Truthy(h.month) && Truthy(h.year)) then Failure(PeriodMissing)
        else Success(gstin.value)
      case Lenient =>
        if !(GstinAccepted(rule, gstin) && Truthy(h.month) && Truthy(h.year)) then Failure(HeaderCellsMissing)
        else Success(gstin.value);
    var g :- checked;
    var month := MonthText(h.month);
    var year := YearText(h.year);
    Success(Period(g, month, year, month + year, ReportFilename(g, month, year), Take(g, 2)))
  }

  /** The strict check only refuses more: whatever it accepts, the lenient
      check accepts with the same period. */
  lemma StrictImpliesLenient(h: HeaderCells)
    requires ReadHeader(Strict, h).Success?
    ensures ReadHeader(Lenient, h) == ReadHeader(Strict, h)
  {
  }

  /** A header accepted by the strict check yields a two-character supplier
      code; any accepted header yields a non-empty one. */
  lemma SupplierCodeLength(rule: HeaderRule, h: HeaderCells)
    requires ReadHeader(rule, h).Success?
    ensures ReadHeader(rule, h).value.supplierCode != ""
    ensures rule == Strict ==> |ReadHeader(rule, h).value.supplierCode| == 2
  {
  }

  /** A calendar month and a two-digit year give the six-character period
      MMYYYY, with the year placed in the 2000s. */
  lemma PeriodOfTwoDigitYear(rule: HeaderRule, h: HeaderCells, m: nat, y: nat)
    requires ReadHeader(rule, h).Success?
    requires h.month == Int(m) && 1 <= m <= 12
    requires h.year == Int(y) && 10 <= y <= 99
    ensures ReadHeader(rule, h).value.fp == Pad2(m) + "20" + NatToString(y)
    ensures |ReadHeader(rule, h).value.fp| == 6
  {
    assert Str(h.month) == NatToString(m);
    assert Str(h.year) == NatToString(y);
  }

  /** A calendar month and a four-digit year give the six-character period
      MMYYYY, the year as written. */
  lemma PeriodOfFourDigitYear(rule: HeaderRule, h: HeaderCells, m: nat, y: nat)
    requires ReadHeader(rule, h).Success?
    requires h.month == Int(m) && 1 <= m <= 12
    requires h.year == Int(y) && 1000 <= y <= 9999
    ensures ReadHeader(rule, h).value.fp == Pad2(m) + NatToString(y)
    ensures |ReadHeader(rule, h).value.fp| == 6
  {
    assert Str(h.month) == NatToString(m);
    assert Str(h.year) == NatToString(y);
  }

  /** A year written as text with two characters is expanded just as the
      number is: "25" and 25 name the same period. */
  lemma TwoDigitYearTextOrNumber(y: nat)
    requires 10 <= y <= 99
    ensures YearText(Text(NatToString(y))) == YearText(Int(y)) == "20" + NatToString(y)
  {
  }

  /** The filename can be taken apart again: with GSTINs and months of equal
      lengths, equal filenames have equal GSTINs, months and years. */
  lemma ReportFilenameInjective(g1: string, m1: string, y1: string, g2: string, m2: string, y2: string)
    requires |g1| == |g2| && |m1| == |m2|
    requires ReportFilename(g1, m1, y1) == ReportFilename(g2, m2, y2)
    ensures g1 == g2 && m1 == m2 && y1 == y2
  {
    var f1 := ReportFilename(g1, m1, y1);
    var f2 := ReportFilename(g2, m2, y2);
    assert |y1| == |y2|;
    assert f1[..|g1|] == g1 && f2[..|g2|] == g2;
    assert f1[|g1| + 1..|g1| + 1 + |m1|] == m1;
    assert f2[|g2| + 1..|g2| + 1 + |m2|] == m2;
    assert f1[|g1| + |m1| + 2..|g1| + |m1| + 2 + |y1|] == y1;
    assert f2[|g2| + |m2| + 2..|g2| + |m2| + 2 + |y2|] == y2;
  }

  /** The supplier GSTIN hard-wired into the oldest script: a placeholder of
      14 characters, one short of a real GSTIN. */
  const PlaceholderGstin: string := "XXAAAXXAXXX0Z0"

  /** The oldest script's filename when no order date parses. */
  const FallbackFilename: string := "Modified_Combo_Report.xlsx"

  /** `a` is no later than `b`. */
  predicate NotAfter(a: Date, b: Date) {
    a.year < b.year || (a.year == b.year && (a.month < b.month || (a.month == b.month && a.day <= b.day)))
  }

  /** `df['order_date'].max()`: the latest parsed date, skipping the dates
      that did not parse; nothing when none did. */
  function Latest(dates: seq<Option<Date>>): (m: Option<Date>)
    ensures m.None? <==> forall i :: 0 <= i < |dates| ==> dates[i].None?
    ensures m.Some? ==> exists i :: 0 <= i < |dates| && dates[i] == m
    ensures m.Some? ==> forall i :: 0 <= i < |dates| && dates[i].Some? ==> NotAfter(dates[i].value, m.value)
    decreases |dates|
  {
    if |dates| == 0 then None
    else
      var init := dates[..|dates| - 1];
      var last := dates[|dates| - 1];
      var m := Latest(init);
      assert forall i :: 0 <= i < |init| ==> init[i] == dates[i];
      if last.None? then m
      else if m.None? || NotAfter(m.value, last.value) then last
      else m
  }

  /** Two latest dates of the same list are the same date. */
  lemma NotAfterAntisymmetric(a: Date, b: Date)
    requires NotAfter(a, b) && NotAfter(b, a)
    ensures a == b
  {
  }

  /** The latest order date, found in one pass over the dates. */
  method LatestDate(dates: seq<Option<Date>>) returns (latest: Option<Date>)
    ensures latest == Latest(dates)
  {
    latest := None;
    for i := 0 to |dates|
      invariant latest == Latest(dates[..i])
    {
      assert dates[..i + 1][..i] == dates[..i];
      if dates[i].Some? && (latest.None? || NotAfter(latest.value, dates[i].value)) {
        latest := dates[i];
      }
    }
    assert dates[..|dates|] == dates;
  }

  /** The order dates of a merged table. */
  function OrderDates(rows: seq<Row>): (ds: seq<Option<Date>>)
    ensures |ds| == |rows|
    ensures forall i :: 0 <= i < |rows| ==> ds[i] == rows[i].rec.orderDate
  {
    seq(|rows|, i requires 0 <= i < |rows| => rows[i].rec.orderDate)
  }

  /** The oldest script's report filename: the placeholder GSTIN with the
      month (`%m`) and year (`%Y`) of the latest order date, or the fallback
      name when no date parsed. */
  function DatedFilename(latest: Option<Date>): (name: string)
    ensures name == FallbackFilename <==> latest.None?
    ensures latest.Some? ==> |name| == 33 && StartsWith(name, PlaceholderGstin + "_") && EndsWith(name, "_GSTR1.xlsx")
  {
    match latest
    case None => FallbackFilename
    case Some(d) =>
      var f := ReportFilename(PlaceholderGstin, Pad2(d.month), NatToString(d.year));
      assert f[|f| - 11..] == "_GSTR1.xlsx";
      assert f[..|PlaceholderGstin| + 1] == PlaceholderGstin + "_";
      f
  }

  /** Two latest dates give the same filename exactly when they fall in the
      same month of the same year. */
  lemma DatedFilenameNamesMonth(a: Date, b: Date)
    ensures DatedFilename(Some(a)) == DatedFilename(Some(b)) <==> a.month == b.month && a.year == b.year
  {
    if DatedFilename(Some(a)) == DatedFilename(Some(b)) {
      ReportFilenameInjective(PlaceholderGstin, Pad2(a.month), NatToString(a.year),
                              PlaceholderGstin, Pad2(b.month), NatToString(b.year));
      Pad2Injective(a.month, b.month);
      NatToStringInjective(a.year, b.year);
    }
  }
}

=== FILE: pipeline.dfy ===
/** One run of `process_zip_and_combine_data`, for each of the three
    scripts: classify the archive's entries, check that the required
    workbooks are there, read the header (the two newer scripts), process and
    merge the sheets, resolve the states, split the tax, and build the
    reports. The reference workbook download is a parameter: only whether it
    arrived matters, and it is checked last. */
module Pipeline {
  import opened Basics
  import opened Strings
  import opened StateCodes
  import opened Rows
  import opened Tax
  import opened Summaries
  import opened Header
  import opened Archive

  /** What a successful run leaves for the download buttons: the header's
      period (the oldest script reads none), the report filename, the intra
      rule applied, the merged and the taxed tables, the two CSV summaries
      and, from the newest script only, the GSTR-1 payload. */
  datatype Reports = Reports(
    period: Option<Period>,
    filename: string,
    rule: IntraRule,
    merged: seq<Mapped>,
    taxed: seq<Taxed>,
    b2cs: seq<B2csLine>,
    hsn: seq<HsnLine>,
    json: Option<Gstr1>,
    columnJ: seq<string>)

  /** How every report of a run follows from its merged table: each row's
      `J_mapped` is its state resolved the script's way, each taxed row
      splits its tax by the run's intra rule, the two CSV summaries group
      the taxed table, column J repeats `J_mapped`, and the GSTR-1 payload
      is built from the header's period and the taxed table. */
  predicate Derived(variant: Variant, rep: Reports) {
    && |rep.taxed| == |rep.merged| && |rep.columnJ| == |rep.merged|
    && (forall i :: 0 <= i < |rep.merged| ==>
         && rep.merged[i].jMapped == MapState(variant, rep.merged[i].row.rec.state)
         && rep.columnJ[i] == rep.merged[i].jMapped
         && TaxedFrom(rep.taxed[i], rep.merged[i], IsIntra(rep.rule, rep.merged[i].jMapped)))
    && !IsIntra(rep.rule, "")
    && rep.b2cs == B2csCsv(rep.taxed)
    && rep.hsn == HsnSummary(variant, rep.taxed)
    && (rep.json.Some? ==>
         && rep.period.Some?
         && rep.json.value == Gstr1Of(rep.period.value.gstin, rep.period.value.fp, rep.period.value.supplierCode, rep.taxed))
  }

  /** A column reference handed to `.loc`: a label, or the integer position
      that `columns.get_loc` returns. */
  datatype ColumnRef = Label(name: string) | Position(index: nat)

  /** Where the combo writer reads column J back from: the column labels of
      the table it reads and the reference it hands to `.loc`. */
  datatype ColumnLookup = ColumnLookup(columns: seq<string>, ref: ColumnRef)

  /** The merged table's columns: the report columns, `TYPE`, then
      `J_mapped`. */
  const MergedColumns: seq<string> := ReportColumns + ["TYPE", "J_mapped"]

  /** `WRITE_COL_ORDER`: the eight columns copied into B..I of the combo
      workbook. */
  const WriteColumns: seq<string> :=
    ["order_date", "order_num", "hsn_code", "gst_rate", "tcs_taxable_amount",
     "end_customer_state_new", "TYPE", "QTY"]

  /** `columns.get_loc(name)`: the position of the first column so named. */
  function ColumnPosition(columns: seq<string>, name: string): (p: nat)
    requires name in columns
    ensures p < |columns| && columns[p] == name
    ensures forall q :: 0 <= q < p ==> columns[q] != name
  {
    if columns[0] == name then 0 else 1 + ColumnPosition(columns[1..], name)
  }

  /** `.loc` on a table whose column labels are all text finds a label that
      is one of them, and never an integer position, which is no label. */
  predicate LocFinds(lookup: ColumnLookup) {
    lookup.ref.Label? && lookup.ref.name in lookup.columns
  }

  /** The lookup as each script writes it. The newest hands the position of
      `J_mapped` in the merged table to `.loc` on its eight-column copy
      `write_df`; the older two hand the label to `.loc` on the merged table. */
  function ColumnJLookup(variant: Variant): ColumnLookup {
    if variant == NewGst then ColumnLookup(WriteColumns, Position(ColumnPosition(MergedColumns, "J_mapped")))
    else ColumnLookup(MergedColumns, Label("J_mapped"))
  }

  /** The lookup the newest script evidently intends, the older scripts' own:
      the label `J_mapped` in the merged table. */
  const IntendedLookup: ColumnLookup := ColumnLookup(MergedColumns, Label("J_mapped"))

  /** Column J of the combo workbook, read back row by row through `.loc`.
      The loop does not run for an empty table; otherwise its first lookup
      raises KeyError unless `.loc` finds the column. */
  function ColumnJ(lookup: ColumnLookup, ms: seq<Mapped>): (r: Result<seq<string>, Error>)
    ensures r.Success? <==> |ms| == 0 || LocFinds(lookup)
    ensures r.Failure? ==> r.error == ColumnNotFound
    ensures r.Success? ==> |r.value| == |ms| && forall i :: 0 <= i < |ms| ==> r.value[i] == ms[i].jMapped
  {
    if |ms| == 0 || LocFinds(lookup) then Success(seq(|ms|, i requires 0 <= i < |ms| => ms[i].jMapped))
    else Failure(ColumnNotFound)
  }

  /** `J_mapped` is column 8 of the merged table but not a column of the
      eight-column copy, so only the older scripts' lookup finds it; the
      intended lookup does. */
  lemma ColumnJLookups()
    ensures ColumnPosition(MergedColumns, "J_mapped") == 8
    ensures !LocFinds(ColumnJLookup(NewGst))
    ensures LocFinds(ColumnJLookup(GstJson)) && LocFinds(ColumnJLookup(MessoV1))
    ensures LocFinds(IntendedLookup)
  {
    assert MergedColumns[8] == "J_mapped";
    assert forall q :: 0 <= q < 8 ==> MergedColumns[q] != "J_mapped";
  }

  /** The data sheet of an entry the spreadsheet reader can open. */
  function SheetIn(c: Content): (r: Result<Sheet, Error>)
    ensures r.Success? <==> c.Workbook?
    ensures r.Success? ==> r.value == c.sheet
    ensures r.Failure? ==> r.error == UnreadableWorkbook
  {
    if c.Workbook? then Success(c.sheet) else Failure(UnreadableWorkbook)
  }

  /** The number of rows a workbook holds, none when it is absent. */
  function RecordCount(c: Option<Content>): nat {
    if c.Some? && c.value.Workbook? then |c.value.sheet.records| else 0
  }

  /** Step 2 of every script: process the sales sheet, then the returns
      sheet when there is one, and concatenate. The first failure stops the
      step. */
  function ProcessBoth(sold: Content, refunds: Option<Content>): (m: Result<seq<Row>, Error>)
    ensures m.Success? ==> sold.Workbook? && (refunds.Some? ==> refunds.value.Workbook?)
    ensures m.Success? ==> |m.value| == RecordCount(Some(sold)) + RecordCount(refunds)
    ensures m.Success? ==> forall i :: 0 <= i < |m.value| ==>
      SignConvention(m.value[i]) && (m.value[i].kind == Sale <==> i < RecordCount(Some(sold)))
    ensures sold.Workbook? && (refunds.None? || refunds.value.Workbook?) ==>
      m == Combine(sold.sheet, if refunds.Some? then Some(refunds.value.sheet) else None)
  {
    var s :- SheetIn(sold);
    if !Processable(s.columns) then Failure(ProcessFile(s, Sale).error)
    else
      var r: Option<Sheet> :- match refunds
        case None => Success(None)
        case Some(c) => var sh :- SheetIn(c); Success(Some(sh));
      var m := Combine(s, r);
      if m.Success? then CombinedSigns(s, r); m else m
  }

  /** The merged table a successful intake holds: the sales rows, then the
      returns rows when the script found a returns workbook. */
  predicate MergedFrom(variant: Variant, entries: seq<Entry>, rows: seq<Row>) {
    var sold := LastOf(entries, EntryRole, SalesRole);
    var refunds := LastOf(entries, EntryRole, ReturnsRole);
    && Present(variant, sold)
    && (variant != NewGst ==> Present(variant, refunds))
    && |rows| == RecordCount(Some(sold.value.content))
         + (if Present(variant, refunds) then RecordCount(Some(refunds.value.content)) else 0)
    && (forall i :: 0 <= i < |rows| ==>
         SignConvention(rows[i]) && (rows[i].kind == Sale <==> i < RecordCount(Some(sold.value.content))))
    && sold.value.content.Workbook?
    && (Present(variant, refunds) ==> refunds.value.content.Workbook?)
    && Combine(sold.value.content.sheet,
               if Present(variant, refunds) then Some(refunds.value.content.sheet) else None) == Success(rows)
  }

  /** An entry `process_file` gets through: a workbook whose headers carry
      every report column, the amount and the quantity column once each. */
  predicate Readable(c: Content) {
    c.Workbook? && Processable(c.sheet.columns)
  }

  /** What a script's intake needs to succeed: the mandatory workbooks
      present, every workbook it reads readable, and (in the two newer
      scripts) a header its check accepts. */
  predicate IntakeSucceeds(variant: Variant, entries: seq<Entry>) {
    var sold := LastOf(entries, EntryRole, SalesRole);
    var refunds := LastOf(entries, EntryRole, ReturnsRole);
    && Present(variant, sold)
    && (variant != NewGst ==> Present(variant, refunds))
    && Readable(sold.value.content)
    && (Present(variant, refunds) ==> Readable(refunds.value.content))
    && (variant != MessoV1 ==> ReadHeader(HeaderRuleOf(variant), sold.value.content.header).Success?)
  }

  /** The period a successful intake holds: what the script's header check
      reads from the sales workbook, and none in the oldest script. */
  predicate PeriodFrom(variant: Variant, entries: seq<Entry>, period: Option<Period>) {
    var sold := LastOf(entries, EntryRole, SalesRole);
    if variant == MessoV1 then period.None?
    else
      && sold.Some? && sold.value.content.Workbook? && period.Some?
      && ReadHeader(HeaderRuleOf(variant), sold.value.content.header) == Success(period.value)
  }

  /** The newest script's intake: the sales workbook is mandatory, its
      header is checked strictly, a returns workbook is used when present. */
  function IntakeNewGst(entries: seq<Entry>): (r: Result<(Period, seq<Row>), Error>)
    ensures r.Success? ==> MergedFrom(NewGst, entries, r.value.1)
    ensures r.Success? <==> IntakeSucceeds(NewGst, entries)
    ensures r.Success? ==> PeriodFrom(NewGst, entries, Some(r.value.0))
    ensures r.Success? ==> |r.value.0.supplierCode| == 2
    ensures !Present(NewGst, LastOf(entries, EntryRole, SalesRole)) ==> r == Failure(SalesFileMissing)
  {
    var sold := LastOf(entries, EntryRole, SalesRole);
    var refunds := LastOf(entries, EntryRole, ReturnsRole);
    if !Present(NewGst, sold) then Failure(SalesFileMissing)
    else
      var book :- SheetIn(sold.value.content);
      var period :- ReadHeader(Strict, sold.value.content.header);
      SupplierCodeLength(Strict, sold.value.content.header);
      var rows :- ProcessBoth(sold.value.content, if Present(NewGst, refunds) then Some(refunds.value.content) else None);
      Success((period, rows))
  }

  /** The older scripts' intake: both workbooks are mandatory; the middle
      script reads the header leniently, the oldest reads none. */
  function IntakeOlder(variant: Variant, entries: seq<Entry>): (r: Result<(Option<Period>, seq<Row>), Error>)
    requires variant != NewGst
    ensures r.Success? ==> MergedFrom(variant, entries, r.value.1)
    ensures r.Success? <==> IntakeSucceeds(variant, entries)
    ensures r.Success? ==> PeriodFrom(variant, entries, r.value.0)
    ensures r.Success? ==> (r.value.0.None? <==> variant == MessoV1)
    ensures r.Success? && r.value.0.Some? ==> r.value.0.value.supplierCode != ""
    ensures !Present(variant, LastOf(entries, EntryRole, SalesRole)) || !Present(variant, LastOf(entries, EntryRole, ReturnsRole)) ==>
      r == Failure(SalesOrReturnsMissing)
  {
    var sold := LastOf(entries, EntryRole, SalesRole);
    var refunds := LastOf(entries, EntryRole, ReturnsRole);
    if !Present(variant, sold) || !Present(variant, refunds) then Failure(SalesOrReturnsMissing)
    else if variant == GstJson then
      var book :- SheetIn(sold.value.content);
      var period :- ReadHeader(Lenient, sold.value.content.header);
      SupplierCodeLength(Lenient, sold.value.content.header);
      var rows :- ProcessBoth(sold.value.content, Some(refunds.value.content));
      Success((Some(period), rows))
    else
      var rows :- ProcessBoth(sold.value.content, Some(refunds.value.content));
      Success((None, rows))
  }

  /** Steps 1 and 2 of a script: classification, presence, header, merge. */
  function Intake(variant: Variant, entries: seq<Entry>): (r: Result<(Option<Period>, seq<Row>), Error>)
    ensures r.Success? ==> MergedFrom(variant, entries, r.value.1)
    ensures r.Success? <==> IntakeSucceeds(variant, entries)
    ensures r.Success? ==> PeriodFrom(variant, entries, r.value.0)
    ensures r.Success? ==> (r.value.0.None? <==> variant == MessoV1)
    ensures r.Success? && r.value.0.Some? ==> r.value.0.value.supplierCode != ""
  {
    if variant == NewGst then
      var (p, rows) :- IntakeNewGst(entries);
      Success((Some(p), rows))
    else IntakeOlder(variant, entries)
  }

  /** The steps after the merge: states, tax, filename, template, reports. */
  function Report(variant: Variant, period: Option<Period>, rows: seq<Row>, templateFetched: bool): (r: Result<Reports, Error>)
    requires period.Some? ==> period.value.supplierCode != ""
    ensures r.Success? <==> templateFetched
    ensures r.Success? ==> r.value.period == period && |r.value.merged| == |rows|
    ensures r.Success? ==> (r.value.json.Some? <==> variant == NewGst && period.Some?)
    ensures r.Success? ==> forall i :: 0 <= i < |rows| ==> r.value.merged[i].row == rows[i]
    ensures r.Success? ==> Derived(variant, r.value)
    ensures r.Success? && period.Some? ==>
      && r.value.rule == SamePrefix(period.value.supplierCode)
      && r.value.filename == period.value.filename
    ensures r.Success? && period.None? ==>
      && r.value.rule == SameCode(Maharashtra)
      && r.value.filename == DatedFilename(Latest(OrderDates(rows)))
  {
    var ms := MapStates(variant, rows);
    var rule := if period.Some? then SamePrefix(period.value.supplierCode) else SameCode(Maharashtra);
    var filename := if period.Some? then period.value.filename else DatedFilename(Latest(OrderDates(rows)));
    if !templateFetched then Failure(TemplateUnavailable)
    else
      assert forall i :: 0 <= i < |ms| ==> ms[i].jMapped == MapState(variant, ms[i].row.rec.state);
      assert !IsIntra(rule, "");
      Success(Assemble(variant, period, filename, rule, ms))
  }

  /** The reports of one run, once the merged table is mapped and the intra
      rule and filename are chosen: the tax split, column J, the two CSV
      summaries and, from the newest script with a header, the payload. */
  function Assemble(variant: Variant, period: Option<Period>, filename: string, rule: IntraRule, ms: seq<Mapped>): (rep: Reports)
    requires period.Some? ==> period.value.supplierCode != ""
    requires forall i :: 0 <= i < |ms| ==> ms[i].jMapped == MapState(variant, ms[i].row.rec.state)
    requires !IsIntra(rule, "")
    ensures rep.period == period && rep.filename == filename && rep.rule == rule && rep.merged == ms
    ensures rep.json.Some? <==> variant == NewGst && period.Some?
    ensures Derived(variant, rep)
  {
    var ts := ApplyTax(rule, ms);
    ColumnJLookups();
    var columnJ := ColumnJ(IntendedLookup, ms).value;
    var json := if variant == NewGst && period.Some? then Some(Gstr1Of(period.value.gstin, period.value.fp, period.value.supplierCode, ts)) else None;
    Reports(period, filename, rule, ms, ts, B2csCsv(ts), HsnSummary(variant, ts), json, columnJ)
  }

  /** The steps after the merge as the scripts are written: the same, except
      that column J is read back through each script's own lookup. The
      newest script's lookup raises KeyError on every table with a row, so
      with the template at hand it only ever succeeds on an empty table. */
  function ReportAsWritten(variant: Variant, period: Option<Period>, rows: seq<Row>, templateFetched: bool): (r: Result<Reports, Error>)
    requires period.Some? ==> period.value.supplierCode != ""
    ensures r.Success? <==> templateFetched && (variant != NewGst || |rows| == 0)
    ensures templateFetched && r.Failure? ==> r.error == ColumnNotFound
    ensures r.Success? ==> r == Report(variant, period, rows, templateFetched)
  {
    if !templateFetched then Failure(TemplateUnavailable)
    else
      ColumnJLookups();
      var written :- ColumnJ(ColumnJLookup(variant), MapStates(variant, rows));
      Report(variant, period, rows, templateFetched)
  }

  /** The whole run of one script on an archive whose entries are
      `entries`; `templateFetched` says whether the reference workbook could
      be downloaded. */
  function Run(variant: Variant, entries: seq<Entry>, templateFetched: bool): (r: Result<Reports, Error>)
    ensures r.Success? <==> IntakeSucceeds(variant, entries) && templateFetched
    ensures r.Success? ==> MergedFrom(variant, entries, MergedRows(r.value.merged))
    ensures r.Success? ==> (r.value.json.Some? <==> variant == NewGst)
    ensures r.Success? ==> (r.value.period.None? <==> variant == MessoV1)
    ensures r.Success? ==> Derived(variant, r.value)
    ensures r.Success? ==> PeriodFrom(variant, entries, r.value.period)
    ensures r.Success? && r.value.period.Some? ==>
      && r.value.rule == SamePrefix(r.value.period.value.supplierCode)
      && r.value.filename == r.value.period.value.filename
    ensures r.Success? && variant == MessoV1 ==>
      && r.value.rule == SameCode(Maharashtra)
      && r.value.filename == DatedFilename(Latest(OrderDates(MergedRows(r.value.merged))))
  {
    var intake := Intake(variant, entries);
    if intake.Failure? then Failure(intake.error)
    else
      var r := Report(variant, intake.value.0, intake.value.1, templateFetched);
      if r.Success? then MergedRowsOf(r.value.merged, intake.value.1); r
      else r
  }

  /** A mapped table whose rows are `rows` projects back onto them. */
  lemma MergedRowsOf(ms: seq<Mapped>, rows: seq<Row>)
    requires |ms| == |rows| && forall i :: 0 <= i < |rows| ==> ms[i].row == rows[i]
    ensures MergedRows(ms) == rows
  {
  }

  /** The whole run as the scripts are written. It agrees with `Run` except
      that the newest script fails on every merged table with a row. */
  function RunAsWritten(variant: Variant, entries: seq<Entry>, templateFetched: bool): (r: Result<Reports, Error>)
    ensures r.Success? ==> r == Run(variant, entries, templateFetched)
    ensures variant != NewGst ==> r == Run(variant, entries, templateFetched)
    ensures r.Success? <==>
      Run(variant, entries, templateFetched).Success? &&
      (variant != NewGst || |Run(variant, entries, templateFetched).value.merged| == 0)
  {
    var (period, rows) :- Intake(variant, entries);
    ReportAsWritten(variant, period, rows, templateFetched)
  }

  /** With the template at hand, the newest script as written fails with
      KeyError on every merged table that has a row. */
  lemma ColumnJKeyError(period: Option<Period>, rows: seq<Row>)
    requires period.Some? ==> period.value.supplierCode != ""
    requires |rows| > 0
    ensures ReportAsWritten(NewGst, period, rows, true) == Failure(ColumnNotFound)
    ensures Report(NewGst, period, rows, true).Success?
  {
  }

  /** The rows of a mapped table. */
  function MergedRows(ms: seq<Mapped>): (rows: seq<Row>)
    ensures |rows| == |ms| && forall i :: 0 <= i < |ms| ==> rows[i] == ms[i].row
  {
    seq(|ms|, i requires 0 <= i < |ms| => ms[i].row)
  }

  /** Returns are optional only in the newest script: without a returns
      workbook the older two stop, while the newest goes on with the sales
      rows alone. */
  lemma ReturnsOptionalOnlyInNewGst(entries: seq<Entry>, templateFetched: bool)
    requires LastOf(entries, EntryRole, ReturnsRole).None?
    ensures Run(GstJson, entries, templateFetched) == Failure(SalesOrReturnsMissing)
    ensures Run(MessoV1, entries, templateFetched) == Failure(SalesOrReturnsMissing)
    ensures var sold := LastOf(entries, EntryRole, SalesRole);
      Run(NewGst, entries, templateFetched).Success? <==>
        && templateFetched && Present(NewGst, sold) && Readable(sold.value.content)
        && ReadHeader(Strict, sold.value.content.header).Success?
    ensures Run(NewGst, entries, templateFetched).Success? ==>
      |Run(NewGst, entries, templateFetched).value.merged| == RecordCount(Some(LastOf(entries, EntryRole, SalesRole).value.content))
  {
  }

  /** Every row whose state did not resolve is charged as inter-state: all
      its tax is IGST, in every script and whatever period was read. */
  lemma UnresolvedRowsPayIgst(variant: Variant, period: Option<Period>, rows: seq<Row>)
    requires period.Some? ==> period.value.supplierCode != ""
    ensures var rep := Report(variant, period, rows, true).value;
      forall i :: 0 <= i < |rep.taxed| && rep.merged[i].jMapped == "" ==>
        TaxedFrom(rep.taxed[i], rep.merged[i], false)
  {
  }

  /** Without the reference workbook no script produces anything, whatever
      the archive holds. */
  lemma TemplateRequired(variant: Variant, entries: seq<Entry>)
    ensures Run(variant, entries, false).Failure?
  {
  }
}

=== FILE: rows.dfy ===
/** The row pipeline shared by the three scripts: an uploaded workbook is
    projected onto the seven report columns, stamped Sale or Return and given
    the sign convention; sales and returns are concatenated; every row's
    customer state is resolved to a jurisdiction code (column J). */
module Rows {
  import opened Basics
  import opened Strings
  import opened StateCodes

  /** The `TYPE` stamp of a row. */
  datatype Kind = Sale | Return

  /** A calendar date as `pd.to_datetime` yields it, inside the range a
      pandas timestamp can hold. */
  datatype CalendarDate = CalendarDate(year: nat, month: nat, day: nat)

  predicate ValidDate(d: CalendarDate) {
    1677 <= d.year <= 2262 && 1 <= d.month <= 12 && 1 <= d.day <= 31
  }

  type Date = d: CalendarDate | ValidDate(d) witness CalendarDate(2000, 1, 1)

  /** One row of an uploaded workbook, already projected onto the report
      columns. Numeric columns hold what `pd.to_numeric(errors="coerce")`
      makes of the cell (`None` is NaN); the order date is what
      `pd.to_datetime(errors="coerce")` makes of it. */
  datatype Record = Record(
    orderDate: Option<Date>,
    orderNum: Cell,
    hsn: string,
    rate: Option<real>,
    amount: Option<real>,
    state: Cell,
    qty: Option<real>)

  /** An uploaded workbook's data sheet: its header row and its rows. */
  datatype Sheet = Sheet(columns: seq<string>, records: seq<Record>)

  /** A normalised row: the record with signed amount and quantity, and its
      `TYPE`. */
  datatype Row = Row(rec: Record, kind: Kind)

  /** The marketplace export's column names, in `COLUMN_MAPPING` order. */
  const SourceColumns: seq<string> :=
    ["order_date", "sub_order_num", "hsn_code", "gst_rate", "total_taxable_sale_value",
     "end_customer_state_new", "quantity"]

  /** The report's column names, the values of `COLUMN_MAPPING`. */
  const ReportColumns: seq<string> :=
    ["order_date", "order_num", "hsn_code", "gst_rate", "tcs_taxable_amount",
     "end_customer_state_new", "QTY"]

  /** `df.rename(columns=COLUMN_MAPPING)` on one header: the three renamed
      columns get their report names, every other header is kept. */
  function RenameColumn(c: string): string {
    if c == "sub_order_num" then "order_num"
    else if c == "total_taxable_sale_value" then "tcs_taxable_amount"
    else if c == "quantity" then "QTY"
    else c
  }

  /** Some header of the sheet is called `name` after renaming. */
  predicate HasColumn(columns: seq<string>, name: string) {
    exists i :: 0 <= i < |columns| && RenameColumn(columns[i]) == name
  }

  /** The projection `df[list(COLUMN_MAPPING.values())]` finds every column. */
  predicate HasReportColumns(columns: seq<string>) {
    forall k :: 0 <= k < |ReportColumns| ==> HasColumn(columns, ReportColumns[k])
  }

  /** How many headers of the sheet are called `name` after renaming. */
  function RenamedCount(columns: seq<string>, name: string): (n: nat)
    ensures n <= |columns|
    ensures n > 0 <==> HasColumn(columns, name)
    decreases |columns|
  {
    if |columns| == 0 then 0
    else
      var init := columns[..|columns| - 1];
      var n := RenamedCount(init, name);
      assert forall i :: 0 <= i < |init| ==> init[i] == columns[i];
      n + if RenameColumn(columns[|columns| - 1]) == name then 1 else 0
  }

  /** `pd.to_numeric` is handed a single column: at most one header renames
      to the amount column and at most one to the quantity column. With two,
      the projection keeps both and `df_final[...]` is a two-column table,
      which `pd.to_numeric` refuses with TypeError. */
  predicate NumericColumnsSingle(columns: seq<string>) {
    RenamedCount(columns, "tcs_taxable_amount") <= 1 && RenamedCount(columns, "QTY") <= 1
  }

  /** A name that only header `k` renames to is counted at most once. */
  lemma {:induction false} RenamedOnce(columns: seq<string>, name: string, k: nat)
    requires forall i :: 0 <= i < |columns| && RenameColumn(columns[i]) == name ==> i == k
    ensures RenamedCount(columns, name) <= 1
    decreases |columns|
  {
    if |columns| > 0 {
      var init := columns[..|columns| - 1];
      assert forall i :: 0 <= i < |init| ==> init[i] == columns[i];
      RenamedOnce(init, name, k);
      if RenameColumn(columns[|columns| - 1]) == name {
        assert forall i :: 0 <= i < |init| ==> RenameColumn(init[i]) != name;
      }
    }
  }

  /** Two headers renaming to the same name are counted twice. */
  lemma {:induction false} RenamedTwice(columns: seq<string>, name: string, i: nat, j: nat)
    requires i < j < |columns| && RenameColumn(columns[i]) == name && RenameColumn(columns[j]) == name
    ensures RenamedCount(columns, name) >= 2
    decreases |columns|
  {
    var init := columns[..|columns| - 1];
    assert forall q :: 0 <= q < |init| ==> init[q] == columns[q];
    if j == |columns| - 1 {
      assert HasColumn(init, name) by { assert RenameColumn(init[i]) == name; }
    } else {
      RenamedTwice(init, name, i, j);
    }
  }

  /** `process_file` gets through on a sheet with these headers. */
  predicate Processable(columns: seq<string>) {
    HasReportColumns(columns) && NumericColumnsSingle(columns)
  }

  /** `y` is `x` with the sign convention of `kind` applied: NaN stays NaN,
      the magnitude is kept, returns are non-positive and sales non-negative. */
  predicate SignedFrom(y: Option<real>, x: Option<real>, kind: Kind) {
    && (y.None? <==> x.None?)
    && (y.Some? && x.Some? ==> Abs(y.value) == Abs(x.value))
    && (y.Some? && kind == Return ==> y.value <= 0.0)
    && (y.Some? && kind == Sale ==> y.value >= 0.0)
  }

  /** `row` is `rec` normalised as `kind`: stamped, amount and quantity
      signed, every other column untouched. */
  predicate NormalisedFrom(row: Row, rec: Record, kind: Kind) {
    && row.kind == kind
    && SignedFrom(row.rec.amount, rec.amount, kind)
    && SignedFrom(row.rec.qty, rec.qty, kind)
    && row.rec.(amount := rec.amount, qty := rec.qty) == rec
  }

  /** `x.abs() * -1` for returns, `x.abs()` for sales; NaN propagates. */
  function Signed(x: Option<real>, kind: Kind): (y: Option<real>)
    ensures SignedFrom(y, x, kind)
  {
    match x
    case None => None
    case Some(v) => Some(if kind == Return then -Abs(v) else Abs(v))
  }

  /** The sign convention leaves exactly one choice: any value that is
      NaN-for-NaN, of the same magnitude and of the right sign is the
      normalised one. */
  lemma SignedUnique(x: Option<real>, kind: Kind, y: Option<real>)
    requires SignedFrom(y, x, kind)
    ensures y == Signed(x, kind)
  {
    if y.Some? {
      var v, w := x.value, y.value;
      if kind == Return {
        assert w <= 0.0 && Abs(w) == -w;
      } else {
        assert w >= 0.0 && Abs(w) == w;
      }
    }
  }

  /** One row of `process_file`: stamp the type and apply the sign
      convention to amount and quantity. */
  function Normalise(rec: Record, kind: Kind): (row: Row)
    ensures NormalisedFrom(row, rec, kind)
  {
    Row(rec.(amount := Signed(rec.amount, kind), qty := Signed(rec.qty, kind)), kind)
  }

  /** Normalising a normalised row again as the same kind changes nothing. */
  lemma NormaliseIdempotent(rec: Record, kind: Kind)
    ensures Normalise(Normalise(rec, kind).rec, kind) == Normalise(rec, kind)
  {
    var once := Normalise(rec, kind);
    SignedUnique(once.rec.amount, kind, Signed(once.rec.amount, kind));
    assert SignedFrom(once.rec.amount, once.rec.amount, kind);
    SignedUnique(once.rec.amount, kind, once.rec.amount);
    assert SignedFrom(once.rec.qty, once.rec.qty, kind);
    SignedUnique(once.rec.qty, kind, once.rec.qty);
  }

  /** `process_file`: fails as the projection does when a report column is
      missing after renaming, then as `pd.to_numeric` does when the amount
      or the quantity column is doubled; otherwise every row is normalised,
      one for one and in order. */
  function ProcessFile(sheet: Sheet, kind: Kind): (r: Result<seq<Row>, Error>)
    ensures r.Failure? <==> !HasReportColumns(sheet.columns) || !NumericColumnsSingle(sheet.columns)
    ensures r.Failure? && !HasReportColumns(sheet.columns) ==> r.error == MissingColumns
    ensures r.Failure? && HasReportColumns(sheet.columns) ==> r.error == DuplicateColumns
    ensures r.Success? ==> |r.value| == |sheet.records|
    ensures r.Success? ==> forall i :: 0 <= i < |r.value| ==> NormalisedFrom(r.value[i], sheet.records[i], kind)
  {
    if !HasReportColumns(sheet.columns) then Failure(MissingColumns)
    else if !NumericColumnsSingle(sheet.columns) then Failure(DuplicateColumns)
    else Success(seq(|sheet.records|, i requires 0 <= i < |sheet.records| => Normalise(sheet.records[i], kind)))
  }

  /** A sheet with the marketplace export's own header row is accepted. */
  lemma ExportHeaderAccepted(records: seq<Record>, kind: Kind)
    ensures ProcessFile(Sheet(SourceColumns, records), kind).Success?
  {
    ExportColumns();
  }

  /** The export's headers rename one for one onto the report columns. */
  lemma ExportColumns()
    ensures HasReportColumns(SourceColumns) && NumericColumnsSingle(SourceColumns)
  {
    forall k | 0 <= k < |ReportColumns|
      ensures HasColumn(SourceColumns, ReportColumns[k])
    {
      assert RenameColumn(SourceColumns[k]) == ReportColumns[k];
    }
    forall i | 0 <= i < |SourceColumns| && RenameColumn(SourceColumns[i]) == "tcs_taxable_amount"
      ensures i == 4
    {
      assert RenameColumn(SourceColumns[i]) == ReportColumns[i];
    }
    forall i | 0 <= i < |SourceColumns| && RenameColumn(SourceColumns[i]) == "QTY"
      ensures i == 6
    {
      assert RenameColumn(SourceColumns[i]) == ReportColumns[i];
    }
    RenamedOnce(SourceColumns, "tcs_taxable_amount", 4);
    RenamedOnce(SourceColumns, "QTY", 6);
  }

  /** More headers never lose a report column. */
  lemma ReportColumnsExtend(columns: seq<string>, more: seq<string>)
    requires HasReportColumns(columns)
    ensures HasReportColumns(columns + more)
  {
    forall k | 0 <= k < |ReportColumns|
      ensures HasColumn(columns + more, ReportColumns[k])
    {
      var i :| 0 <= i < |columns| && RenameColumn(columns[i]) == ReportColumns[k];
      assert (columns + more)[i] == columns[i];
    }
  }

  /** A sheet with every report column but two headers renaming to the
      amount or to the quantity column is refused with DuplicateColumns;
      the export's own header plus a "QTY" header is one. */
  lemma DoubledNumericRefused(sheet: Sheet, kind: Kind, name: string, i: nat, j: nat)
    requires HasReportColumns(sheet.columns)
    requires name == "tcs_taxable_amount" || name == "QTY"
    requires i < j < |sheet.columns|
    requires RenameColumn(sheet.columns[i]) == name && RenameColumn(sheet.columns[j]) == name
    ensures ProcessFile(sheet, kind) == Failure(DuplicateColumns)
    ensures ProcessFile(Sheet(SourceColumns + ["QTY"], sheet.records), kind) == Failure(DuplicateColumns)
  {
    RenamedTwice(sheet.columns, name, i, j);
    var cols := SourceColumns + ["QTY"];
    ExportColumns();
    ReportColumnsExtend(SourceColumns, ["QTY"]);
    assert cols[6] == "quantity" && cols[7] == "QTY";
    RenamedTwice(cols, "QTY", 6, 7);
  }

  /** A sheet with no header that renames to the quantity column is
      refused; the export's own header without its last column is one. */
  lemma QuantityRequired(sheet: Sheet, kind: Kind)
    requires forall i :: 0 <= i < |sheet.columns| ==> RenameColumn(sheet.columns[i]) != "QTY"
    ensures ProcessFile(sheet, kind) == Failure(MissingColumns)
    ensures ProcessFile(Sheet(SourceColumns[..6], sheet.records), kind) == Failure(MissingColumns)
  {
    assert ReportColumns[6] == "QTY" && !HasColumn(sheet.columns, ReportColumns[6]);
    var cols := SourceColumns[..6];
    forall i | 0 <= i < |cols|
      ensures RenameColumn(cols[i]) != "QTY"
    {
      assert cols[i] == SourceColumns[i];
    }
    assert !HasColumn(cols, ReportColumns[6]);
  }

  /** The merged table: the processed sales rows followed by the processed
      returns rows (`pd.concat([df_sales, df_returns])`). A script that finds
      no returns workbook contributes an empty returns table (`None`). */
  function Combine(sold: Sheet, refunds: Option<Sheet>): (m: Result<seq<Row>, Error>)
    ensures m.Failure? <==>
      !Processable(sold.columns) || (refunds.Some? && !Processable(refunds.value.columns))
    ensures m.Success? ==>
      |m.value| == |sold.records| + (if refunds.Some? then |refunds.value.records| else 0)
    ensures m.Success? ==> forall i :: 0 <= i < |sold.records| ==>
      NormalisedFrom(m.value[i], sold.records[i], Sale)
    ensures m.Success? && refunds.Some? ==> forall i :: 0 <= i < |refunds.value.records| ==>
      NormalisedFrom(m.value[|sold.records| + i], refunds.value.records[i], Return)
  {
    var s :- ProcessFile(sold, Sale);
    var r :- if refunds.Some? then ProcessFile(refunds.value, Return) else Success([]);
    assert forall i :: 0 <= i < |s| ==> (s + r)[i] == s[i];
    assert forall i :: 0 <= i < |r| ==> (s + r)[|s| + i] == r[i];
    Success(s + r)
  }

  /** A row obeys the sign convention of its `TYPE`: a return carries no
      positive amount or quantity, a sale no negative one. */
  predicate SignConvention(row: Row) {
    && (row.rec.amount.Some? && row.kind == Return ==> row.rec.amount.value <= 0.0)
    && (row.rec.amount.Some? && row.kind == Sale ==> row.rec.amount.value >= 0.0)
    && (row.rec.qty.Some? && row.kind == Return ==> row.rec.qty.value <= 0.0)
    && (row.rec.qty.Some? && row.kind == Sale ==> row.rec.qty.value >= 0.0)
  }

  /** Every row of a merged table obeys the sign convention, the sales rows
      come first and the returns rows after them. */
  lemma CombinedSigns(sold: Sheet, refunds: Option<Sheet>)
    requires Combine(sold, refunds).Success?
    ensures forall i :: 0 <= i < |Combine(sold, refunds).value| ==>
      && SignConvention(Combine(sold, refunds).value[i])
      && (Combine(sold, refunds).value[i].kind == Sale <==> i < |sold.records|)
  {
    var m := Combine(sold, refunds).value;
    var n := |sold.records|;
    forall i | 0 <= i < |m|
      ensures SignConvention(m[i]) && (m[i].kind == Sale <==> i < n)
    {
      if i < n {
        NormalisedObeysSign(m[i], sold.records[i], Sale);
      } else {
        assert refunds.Some? && i - n < |refunds.value.records|;
        var k := i - n;
        assert m[n + k] == m[i];
        NormalisedObeysSign(m[n + k], refunds.value.records[k], Return);
      }
    }
  }

  lemma NormalisedObeysSign(row: Row, rec: Record, kind: Kind)
    requires NormalisedFrom(row, rec, kind)
    ensures SignConvention(row) && row.kind == kind
  {
  }

  /** A row with its resolved jurisdiction code (`J_mapped`). */
  datatype Mapped = Mapped(row: Row, jMapped: string)

  /** The state mapping step. The newest script renders every cell as text
      first (`astype(str)`, so a blank cell becomes "nan"); the older scripts
      call `.str.title()` directly, which turns any non-text cell into NaN and
      hence into "". Either way a miss resolves to "". */
  function MapState(variant: Variant, state: Cell): (code: string)
    ensures code == "" || WellFormedCode(code)
    ensures code != "" ==> state.Text? && Lookup(Title(state.s)).Some?
    ensures state.Text? ==> code == Resolve(state.s)
    ensures !state.Text? ==> code == ""
  {
    match variant
    case NewGst =>
      assert state.Text? || Lookup(Title(Str(state))).None? by {
        if !state.Text? { NonTextNeverResolves(state); }
      }
      Resolve(Str(state))
    case _ => if state.Text? then Resolve(state.s) else ""
  }

  /** A non-text cell rendered by `str()` is "nan" or a decimal integer;
      neither title-cases to a table key. */
  lemma NonTextNeverResolves(state: Cell)
    requires !state.Text?
    ensures Lookup(Title(Str(state))).None?
  {
    match state
    case Blank =>
      assert Title("nan") == "Nan";
    case Int(n) =>
      var s := Str(state);
      assert |s| > 0 && !IsCased(s[0]) by {
        if n < 0 {
          assert s == "-" + NatToString(-n);
        } else {
          assert s == NatToString(n) && IsDigit(s[0]);
        }
      }
      TitleKeepsUncasedHead(s);
  }

  /** The three scripts agree on every cell's jurisdiction code, although
      only the newest renders non-text cells as text before looking them up. */
  lemma MapStateVariantsAgree(state: Cell)
    ensures MapState(NewGst, state) == MapState(GstJson, state) == MapState(MessoV1, state)
  {
    if !state.Text? {
      NonTextNeverResolves(state);
    }
  }

  /** Column J for a whole merged table. */
  function MapStates(variant: Variant, rows: seq<Row>): (ms: seq<Mapped>)
    ensures |ms| == |rows|
    ensures forall i :: 0 <= i < |ms| ==> ms[i].row == rows[i] && (ms[i].jMapped == "" || WellFormedCode(ms[i].jMapped))
    ensures forall i :: 0 <= i < |ms| ==> ms[i].jMapped == MapState(variant, rows[i].rec.state)
  {
    seq(|rows|, i requires 0 <= i < |rows| => Mapped(rows[i], MapState(variant, rows[i].rec.state)))
  }
}

=== FILE: state_codes.dfy ===
/** The State Code Resolver: free-text customer state names are title-cased
    and looked up in a fixed table of spelling variants, each mapped to the
    canonical "NN-Name" jurisdiction code; a miss resolves to "". */
module StateCodes {
  import opened Basics
  import opened Strings

  /** A canonical jurisdiction: its two-digit GST number and display name.
      The scripts store it rendered, as "27-Maharashtra". */
  datatype Jurisdiction = Jurisdiction(number: nat, name: string)

  /** What every table entry satisfies: a number that renders as two
      digits and a non-empty name. */
  predicate Known(j: Jurisdiction) {
    1 <= j.number <= 97 && j.name != ""
  }

  const MaharashtraEntry: Jurisdiction := Jurisdiction(27, "Maharashtra")

  /** The supplier jurisdiction hard-wired into the oldest script. */
  const Maharashtra: string := "27-Maharashtra"

  /** The "NN-Name" text a table value is written as. */
  function Render(j: Jurisdiction): string {
    Pad2(j.number) + "-" + j.name
  }

  /** A canonical code: two digits, a hyphen, then a non-empty name. */
  predicate WellFormedCode(v: string) {
    |v| > 3 && IsDigit(v[0]) && IsDigit(v[1]) && v[2] == '-'
  }

  /** The first two characters of a code, `code[:2]` in the scripts. */
  function Number(code: string): string {
    Take(code, 2)
  }

  /** The state table shared verbatim by all three scripts, as one dictionary
      lookup. For proof economy the lookup is dispatched on the key's initial
      letter; every key of the table starts with a capital letter, so any
      other key misses, exactly as in the dictionary. */
  function Lookup(key: string): (j: Option<Jurisdiction>)
    ensures j.Some? ==> Known(j.value)
    ensures j.Some? ==> (j.value.number == 27 <==> j.value == MaharashtraEntry)
    ensures j.Some? ==> |key| > 0 && IsUpper(key[0])
  {
    if |key| == 0 || !IsUpper(key[0]) then None
    else if key[0] <= 'C' then LookupAtoC(key)
    else if key[0] <= 'H' then LookupDtoH(key)
    else if key[0] <= 'L' then LookupJtoL(key)
    else if key[0] <= 'O' then LookupMtoO(key)
    else if key[0] <= 'S' then LookupPtoS(key)
    else LookupTtoW(key)
  }

  /** Table entries whose key starts with A to C. */
  function LookupAtoC(key: string): (j: Option<Jurisdiction>)
    ensures j.Some? ==> Known(j.value)
    ensures j.Some? ==> (j.value.number == 27 <==> j.value == MaharashtraEntry)
  {
    if key == "Chandigarh" then Some(Jurisdiction(4, "Chandigarh"))
    else if key == "Bihar" then Some(Jurisdiction(10, "Bihar"))
    else if key == "Arunachal Pradesh" then Some(Jurisdiction(12, "Arunachal Pradesh"))
    else if key == "Assam" then Some(Jurisdiction(18, "Assam"))
    else if key == "Chhattisgarh" then Some(Jurisdiction(22, "Chhattisgarh"))
    else if key == "Andaman And Nico.In." then Some(Jurisdiction(35, "Andaman & Nicobar Islands"))
    else if key == "Andaman And Nicobar Islands" then Some(Jurisdiction(35, "Andaman & Nicobar Islands"))
    else if key == "Andaman & Nicobar Islands" then Some(Jurisdiction(35, "Andaman & Nicobar Islands"))
    else if key == "Andhra Pradesh" then Some(Jurisdiction(37, "Andhra Pradesh"))
    else None
  }

  /** Table entries whose key starts with D to H. */
  function LookupDtoH(key: string): (j: Option<Jurisdiction>)
    ensures j.Some? ==> Known(j.value)
    ensures j.Some? ==> (j.value.number == 27 <==> j.value == MaharashtraEntry)
  {
    if key == "Himachal Pradesh" then Some(Jurisdiction(2, "Himachal Pradesh"))
    else if key == "Haryana" then Some(Jurisdiction(6, "Haryana"))
    else if key == "Delhi" then Some(Jurisdiction(7, "Delhi"))
    else if key == "Gujarat" then Some(Jurisdiction(24, "Gujarat"))
    else if key == "Daman And Diu" then Some(Jurisdiction(25, "Daman & Diu"))
    else if key == "Daman & Diu" then Some(Jurisdiction(25, "Daman & Diu"))
    else if key == "Dadra & Nagar Haveli & Daman & Diu" then Some(Jurisdiction(26, "Dadra & Nagar Haveli & Daman & Diu"))
    else if key == "Dadra And Nagar Haveli" then Some(Jurisdiction(26, "Dadra & Nagar Haveli & Daman & Diu"))
    else if key == "Goa" then Some(Jurisdiction(30, "Goa"))
    else None
  }

  /** Table entries whose key starts with J to L. */
  function LookupJtoL(key: string): (j: Option<Jurisdiction>)
    ensures j.Some? ==> Known(j.value)
    ensures j.Some? ==> (j.value.number == 27 <==> j.value == MaharashtraEntry)
  {
    if key == "Jammu And Kashmir" then Some(Jurisdiction(1, "Jammu & Kashmir"))
    else if key == "Jammu & Kashmir" then Some(Jurisdiction(1, "Jammu & Kashmir"))
    else if key == "Jharkhand" then Some(Jurisdiction(20, "Jharkhand"))
    else if key == "Karnataka" then Some(Jurisdiction(29, "Karnataka"))
    else if key == "Lakshadweep" then Some(Jurisdiction(31, "Lakshdweep"))
    else if key == "Kerala" then Some(Jurisdiction(32, "Kerala"))
    else if key == "Ladakh" then Some(Jurisdiction(38, "Ladakh"))
    else None
  }

  /** Table entries whose key starts with M to O. */
  function LookupMtoO(key: string): (j: Option<Jurisdiction>)
    ensures j.Some? ==> Known(j.value)
    ensures j.Some? ==> (j.value.number == 27 <==> j.value == MaharashtraEntry)
  {
    if key == "Nagaland" then Some(Jurisdiction(13, "Nagaland"))
    else if key == "Manipur" then Some(Jurisdiction(14, "Manipur"))
    else if key == "Mizoram" then Some(Jurisdiction(15, "Mizoram"))
    else if key == "Megalaya" then Some(Jurisdiction(17, "Meghalaya"))
    else if key == "Meghalaya" then Some(Jurisdiction(17, "Meghalaya"))
    else if key == "Odisha" then Some(Jurisdiction(21, "Odisha"))
    else if key == "Madhya Pradesh" then Some(Jurisdiction(23, "Madhya Pradesh"))
    else if key == "Maharashtra" then Some(Jurisdiction(27, "Maharashtra"))
    else if key == "Other Territory" then Some(Jurisdiction(97, "Other Territory"))
    else None
  }

  /** Table entries whose key starts with P to S. */
  function LookupPtoS(key: string): (j: Option<Jurisdiction>)
    ensures j.Some? ==> Known(j.value)
    ensures j.Some? ==> (j.value.number == 27 <==> j.value == MaharashtraEntry)
  {
    if key == "Punjab" then Some(Jurisdiction(3, "Punjab"))
    else if key == "Rajasthan" then Some(Jurisdiction(8, "Rajasthan"))
    else if key == "Sikkim" then Some(Jurisdiction(11, "Sikkim"))
    else if key == "Pondicherry" then Some(Jurisdiction(34, "Puducherry"))
    else if key == "Puducherry" then Some(Jurisdiction(34, "Puducherry"))
    else None
  }

  /** Table entries whose key starts with T to W. */
  function LookupTtoW(key: string): (j: Option<Jurisdiction>)
    ensures j.Some? ==> Known(j.value)
    ensures j.Some? ==> (j.value.number == 27 <==> j.value == MaharashtraEntry)
  {
    if key == "Uttarakhand" then Some(Jurisdiction(5, "Uttarakhand"))
    else if key == "Uttar Pradesh" then Some(Jurisdiction(9, "Uttar Pradesh"))
    else if key == "Tripura" then Some(Jurisdiction(16, "Tripura"))
    else if key == "West Bengal" then Some(Jurisdiction(19, "West Bengal"))
    else if key == "The Dadra And Nagar Haveli And Daman And Diu" then Some(Jurisdiction(26, "Dadra & Nagar Haveli & Daman & Diu"))
    else if key == "Tamil Nadu" then Some(Jurisdiction(33, "Tamil Nadu"))
    else if key == "Telangana" then Some(Jurisdiction(36, "Telangana"))
    else None
  }
  /** Looks up customer state text. The text is title-cased first, so
      "MAHARASHTRA", "maharashtra" and "Maharashtra" resolve alike; text not
      in the table resolves to "", never to an error. */
  function Resolve(text: string): (code: string)
    ensures code == "" <==> Lookup(Title(text)).None?
    ensures code != "" ==> WellFormedCode(code)
    ensures code != "" ==> exists j :: Lookup(Title(text)) == Some(j) && code == Render(j)
  {
    match Lookup(Title(text))
    case None => ""
    case Some(j) => RenderWellFormed(j); Render(j)
  }

  /** Every table value, rendered, is two digits, a hyphen and a name, and
      its first two characters are the jurisdiction number. */
  lemma RenderWellFormed(j: Jurisdiction)
    requires Known(j)
    ensures WellFormedCode(Render(j))
    ensures Number(Render(j)) == Pad2(j.number)
  {
    assert Render(j)[..2] == Pad2(j.number);
  }

  /** Resolution ignores the case pattern of its input: resolving the
      title-cased text gives the same code as resolving the text itself. */
  lemma ResolveCaseInsensitive(text: string)
    ensures Resolve(Title(text)) == Resolve(text)
  {
    TitleIdempotent(text);
  }

  /** Texts that differ only in the case of their letters resolve alike:
      "MAHARASHTRA", "maharashtra" and "Maharashtra" give the same code. */
  lemma ResolveIgnoresCase(a: string, b: string)
    requires Lower(a) == Lower(b)
    ensures Resolve(a) == Resolve(b)
  {
    TitleFromIgnoresCase(a, b, false);
  }

  /** Table keys and table values are not interchangeable: the canonical name
      of jurisdiction 31 is spelt "Lakshdweep", which is not itself a key, so
      re-resolving that canonical name misses. */
  lemma LakshdweepNameIsNotAKey()
    ensures Lookup("Lakshadweep") == Some(Jurisdiction(31, "Lakshdweep"))
    ensures Lookup("Lakshdweep").None?
  {
  }
}

=== FILE: strings.dfy ===
/** The handful of Python string operations the scripts rely on, restricted
    to ASCII: `lower`, `title`, `strip`, `zfill`, `in`, `endswith`, slicing
    `s[:n]` and `str()` of an integer. Spreadsheet cells are modelled here too,
    because `str()` and truthiness are applied to them. */
module Strings {

  predicate IsUpper(c: char) { 'A' <= c <= 'Z' }
  predicate IsLower(c: char) { 'a' <= c <= 'z' }
  predicate IsDigit(c: char) { '0' <= c <= '9' }

  /** A character with an upper- and a lower-case form. */
  predicate IsCased(c: char) { IsUpper(c) || IsLower(c) }

  /** Python's `str.isspace` on ASCII: space, tab to carriage return, and the
      four information separators. */
  predicate IsSpace(c: char) {
    c == ' ' || (9 <= c as int <= 13) || (28 <= c as int <= 31)
  }

  function ToLower(c: char): char {
    if IsUpper(c) then (c as int + 32) as char else c
  }

  function ToUpper(c: char): char {
    if IsLower(c) then (c as int - 32) as char else c
  }

  /** Python `s.lower()`. */
  function Lower(s: string): string {
    seq(|s|, i requires 0 <= i < |s| => ToLower(s[i]))
  }

  /** Python `s.title()` from a given context: a character that follows a
      cased character is lower-cased, any other is upper-cased. */
  function TitleFrom(s: string, afterCased: bool): (r: string)
    ensures |r| == |s|
    decreases |s|
  {
    if s == [] then []
    else [if afterCased then ToLower(s[0]) else ToUpper(s[0])] + TitleFrom(s[1..], IsCased(s[0]))
  }

  /** Python `s.title()`: the first letter of every run of letters is
      upper-cased, the rest lower-cased. */
  function Title(s: string): string {
    TitleFrom(s, false)
  }

  /** Title-casing a title-cased text changes nothing. */
  lemma {:induction false} TitleFromIdempotent(s: string, afterCased: bool)
    ensures TitleFrom(TitleFrom(s, afterCased), afterCased) == TitleFrom(s, afterCased)
    decreases |s|
  {
    if s != [] {
      var t := TitleFrom(s, afterCased);
      assert t[0] == (if afterCased then ToLower(s[0]) else ToUpper(s[0]));
      assert IsCased(t[0]) == IsCased(s[0]);
      assert t[1..] == TitleFrom(s[1..], IsCased(s[0]));
      TitleFromIdempotent(s[1..], IsCased(s[0]));
    }
  }

  lemma TitleIdempotent(s: string)
    ensures Title(Title(s)) == Title(s)
  {
    TitleFromIdempotent(s, false);
  }

  /** Title-casing only looks at letters up to case: texts equal after
      lower-casing are title-cased alike. */
  lemma {:induction false} TitleFromIgnoresCase(a: string, b: string, afterCased: bool)
    requires Lower(a) == Lower(b)
    ensures TitleFrom(a, afterCased) == TitleFrom(b, afterCased)
    decreases |a|
  {
    if a != [] {
      assert |b| == |a|;
      assert ToLower(a[0]) == Lower(a)[0] == Lower(b)[0] == ToLower(b[0]);
      assert Lower(a[1..]) == Lower(a)[1..] == Lower(b)[1..] == Lower(b[1..]);
      TitleFromIgnoresCase(a[1..], b[1..], IsCased(a[0]));
    }
  }

  /** A text that starts with an uncased character keeps it under title-casing. */
  lemma TitleKeepsUncasedHead(s: string)
    requires |s| > 0 && !IsCased(s[0])
    ensures |Title(s)| > 0 && Title(s)[0] == s[0]
  {
  }

  /** `p` occurs at the very start of `s`. */
  predicate StartsWith(s: string, p: string) {
    |p| <= |s| && s[..|p|] == p
  }

  /** Python `s.endswith(p)`. */
  predicate EndsWith(s: string, p: string) {
    |p| <= |s| && s[|s| - |p|..] == p
  }

  /** Python `p in s` for strings: `p` occurs somewhere in `s`. */
  predicate Contains(s: string, p: string)
    decreases |s|
  {
    StartsWith(s, p) || (|s| > 0 && Contains(s[1..], p))
  }

  /** Python `s[:n]`: the first `n` characters, or all of `s` if it is shorter. */
  function Take(s: string, n: nat): string {
    if n <= |s| then s[..n] else s
  }

  function LStrip(s: string): string
    decreases |s|
  {
    if |s| > 0 && IsSpace(s[0]) then LStrip(s[1..]) else s
  }

  function RStrip(s: string): string
    decreases |s|
  {
    if |s| > 0 && IsSpace(s[|s| - 1]) then RStrip(s[..|s| - 1]) else s
  }

  /** Python `s.strip()`. */
  function Strip(s: string): string {
    RStrip(LStrip(s))
  }

  /** A text with no characters left after stripping, i.e. falsy after `strip()`. */
  predicate IsBlank(s: string) {
    Strip(s) == ""
  }

  function Zeros(n: nat): string {
    seq(n, _ => '0')
  }

  /** Python `s.zfill(width)`: left-pad with zeros to `width`, keeping a
      leading sign in front of the padding. */
  function ZFill(s: string, width: nat): string {
    if |s| >= width then s
    else if |s| > 0 && (s[0] == '+' || s[0] == '-') then [s[0]] + Zeros(width - |s|) + s[1..]
    else Zeros(width - |s|) + s
  }

  function DigitChar(d: nat): char
    requires d < 10
  {
    ('0' as int + d) as char
  }

  /** Python `str(n)` for a non-negative integer: its decimal digits. */
  function NatToString(n: nat): (r: string)
    ensures |r| > 0 && forall i :: 0 <= i < |r| ==> IsDigit(r[i])
    ensures |r| == 1 <==> n < 10
    ensures |r| == 2 <==> 10 <= n < 100
    ensures |r| == 4 <==> 1000 <= n < 10000
  {
    if n < 10 then [DigitChar(n)] else NatToString(n / 10) + [DigitChar(n % 10)]
  }

  /** Python `str(n).zfill(2)`, which is also what `strftime("%m")` gives for
      a month: the number as at least two digits. */
  function Pad2(n: nat): (r: string)
    ensures n < 100 ==> |r| == 2 && IsDigit(r[0]) && IsDigit(r[1])
  {
    ZFill(NatToString(n), 2)
  }

  /** Two numbers below 100 are told apart by their two-digit renderings. */
  lemma Pad2Injective(m: nat, n: nat)
    requires m < 100 && n < 100 && Pad2(m) == Pad2(n)
    ensures m == n
  {
    assert Pad2(m)[0] == Pad2(n)[0] && Pad2(m)[1] == Pad2(n)[1];
    Pad2Digits(m);
    Pad2Digits(n);
  }

  /** The two characters of `Pad2(n)` are the tens and the units digit. */
  lemma Pad2Digits(n: nat)
    requires n < 100
    ensures Pad2(n) == [DigitChar(n / 10), DigitChar(n % 10)]
  {
    if n >= 10 {
      assert NatToString(n / 10) == [DigitChar(n / 10)];
    }
  }

  /** Distinct numbers have distinct decimal renderings. */
  lemma {:induction false} NatToStringInjective(m: nat, n: nat)
    requires NatToString(m) == NatToString(n)
    ensures m == n
  {
    var r := NatToString(m);
    if m >= 10 {
      assert r[..|r| - 1] == NatToString(m / 10) == NatToString(n / 10);
      assert r[|r| - 1] == DigitChar(m % 10) == DigitChar(n % 10);
      NatToStringInjective(m / 10, n / 10);
    }
  }

  /** Python `str(n)` for an integer. */
  function IntToString(n: int): string {
    if n < 0 then "-" + NatToString(-n) else NatToString(n)
  }

  /** A spreadsheet cell as openpyxl or pandas hands it over. Floating-point
      cells are not modelled. */
  datatype Cell = Blank | Text(s: string) | Int(n: int)

  /** Python truthiness of a cell value: `None`, `""` and `0` are falsy. */
  predicate Truthy(c: Cell) {
    match c
    case Blank => false
    case Text(s) => s != ""
    case Int(n) => n != 0
  }

  /** Python `str()` of a cell value; a missing value renders as pandas' "nan". */
  function Str(c: Cell): string {
    match c
    case Blank => "nan"
    case Text(s) => s
    case Int(n) => IntToString(n)
  }
}

=== FILE: summaries.dfy ===
/** The four reports' aggregation logic: the B2CS summary (table 7, grouped
    by place of supply and rate), the HSN summary (table 12, grouped by HSN
    code and rate), and the GSTR-1 JSON payload built from the same groups. */
module Summaries {
  import opened Basics
  import opened Strings
  import opened StateCodes
  import opened Rows
  import opened Tax
  import opened Grouping

  /** What one cell adds to a column sum: pandas `sum` skips NaN. */
  function Contribution(x: Option<real>): real {
    x.GetOr(0.0)
  }

  /** The summed columns of one taxed row. */
  function TotalsOf(t: Taxed): Totals {
    Totals(
      Contribution(t.mapped.row.rec.qty),
      Contribution(t.mapped.row.rec.amount),
      Contribution(t.totalValue),
      Contribution(t.igst),
      Contribution(t.cgst),
      Contribution(t.sgst))
  }

  /** A bucket key: a text column and the coerced rate. */
  type Key = (string, real)

  /** Rows keyed for B2CS, `groupby(["J_mapped", "gst_rate"])`. */
  function B2csKeyed(ts: seq<Taxed>): (es: seq<(Key, Totals)>)
    ensures |es| == |ts|
    ensures forall i :: 0 <= i < |ts| ==> es[i].0.0 == ts[i].mapped.jMapped && es[i].0.1 == ts[i].rate
  {
    seq(|ts|, i requires 0 <= i < |ts| => ((ts[i].mapped.jMapped, ts[i].rate), TotalsOf(ts[i])))
  }

  /** Rows keyed for HSN, `groupby(["hsn_code", "gst_rate"])`. */
  function HsnKeyed(ts: seq<Taxed>): (es: seq<(Key, Totals)>)
    ensures |es| == |ts|
    ensures forall i :: 0 <= i < |ts| ==> es[i].0.0 == ts[i].mapped.row.rec.hsn && es[i].0.1 == ts[i].rate
  {
    seq(|ts|, i requires 0 <= i < |ts| => ((ts[i].mapped.row.rec.hsn, ts[i].rate), TotalsOf(ts[i])))
  }

  /** The sum of the amounts of all rows (NaN skipped): the taxable value
      the B2CS summary must account for. */
  function TaxableTotal(ts: seq<Taxed>): real
    decreases |ts|
  {
    if |ts| == 0 then 0.0 else TaxableTotal(ts[..|ts| - 1]) + Contribution(ts[|ts| - 1].mapped.row.rec.amount)
  }

  // ---------------------------------------------------------------- B2CS CSV

  /** One line of the B2CS CSV: type, place of supply, rate, taxable value.
      The blank "Applicable % of Tax Rate", cess and e-commerce columns are
      constants and are not modelled. */
  datatype B2csLine = B2csLine(typ: string, pos: string, rate: real, taxable: real)

  /** `generate_b2cs_csv`. */
  function B2csCsv(ts: seq<Taxed>): (lines: seq<B2csLine>)
    ensures forall j :: 0 <= j < |lines| ==> lines[j].typ == "OE"
    ensures forall i, j :: 0 <= i < j < |lines| ==> (lines[i].pos, lines[i].rate) != (lines[j].pos, lines[j].rate)
    ensures B2csLinePairs(lines) == B2csRowPairs(ts)
    ensures forall j :: 0 <= j < |lines| ==>
      lines[j].taxable == SumFor(B2csKeyed(ts), (lines[j].pos, lines[j].rate)).taxable
    ensures LinesTaxable(lines) == TaxableTotal(ts)
  {
    var gs := GroupBy(B2csKeyed(ts));
    var lines := B2csLinesOf(gs);
    B2csCovers(ts, gs, lines);
    B2csLinesOccur(ts, gs, lines);
    LinesTaxableIsTotal(gs, lines);
    KeyedTaxable(ts);
    lines
  }

  /** The (place of supply, rate) pairs the rows carry. */
  function B2csRowPairs(ts: seq<Taxed>): set<Key> {
    set i | 0 <= i < |ts| :: (ts[i].mapped.jMapped, ts[i].rate)
  }

  /** The (place of supply, rate) pairs of some B2CS lines. */
  function B2csLinePairs(lines: seq<B2csLine>): set<Key> {
    set j | 0 <= j < |lines| :: (lines[j].pos, lines[j].rate)
  }

  /** One B2CS line per bucket. */
  function B2csLinesOf(gs: seq<(Key, Totals)>): (lines: seq<B2csLine>)
    ensures |lines| == |gs|
    ensures forall j :: 0 <= j < |gs| ==>
      lines[j] == B2csLine("OE", gs[j].0.0, gs[j].0.1, gs[j].1.taxable)
  {
    seq(|gs|, j requires 0 <= j < |gs| => B2csLine("OE", gs[j].0.0, gs[j].0.1, gs[j].1.taxable))
  }

  /** The sum of the taxable values of some B2CS lines. */
  function LinesTaxable(lines: seq<B2csLine>): real
    decreases |lines|
  {
    if |lines| == 0 then 0.0 else LinesTaxable(lines[..|lines| - 1]) + lines[|lines| - 1].taxable
  }

  /** Lines drawn one for one from the B2CS buckets cover every row's
      (place of supply, rate) pair. */
  lemma B2csCovers(ts: seq<Taxed>, gs: seq<(Key, Totals)>, lines: seq<B2csLine>)
    requires gs == GroupBy(B2csKeyed(ts))
    requires |lines| == |gs| && forall j :: 0 <= j < |gs| ==> lines[j].pos == gs[j].0.0 && lines[j].rate == gs[j].0.1
    ensures B2csRowPairs(ts) <= B2csLinePairs(lines)
  {
    var es := B2csKeyed(ts);
    forall k | k in B2csRowPairs(ts)
      ensures k in B2csLinePairs(lines)
    {
      var i :| 0 <= i < |ts| && k == (ts[i].mapped.jMapped, ts[i].rate);
      var j := RowHasBucket(es, i);
      assert gs[j].0 == es[i].0;
      assert k == (lines[j].pos, lines[j].rate);
    }
  }

  /** Lines drawn one for one from the B2CS buckets carry only pairs some
      row has, each with the taxable sum of its rows. */
  lemma B2csLinesOccur(ts: seq<Taxed>, gs: seq<(Key, Totals)>, lines: seq<B2csLine>)
    requires gs == GroupBy(B2csKeyed(ts))
    requires |lines| == |gs| && forall j :: 0 <= j < |gs| ==>
      lines[j].pos == gs[j].0.0 && lines[j].rate == gs[j].0.1 && lines[j].taxable == gs[j].1.taxable
    ensures B2csLinePairs(lines) <= B2csRowPairs(ts)
    ensures forall j :: 0 <= j < |lines| ==>
      lines[j].taxable == SumFor(B2csKeyed(ts), (lines[j].pos, lines[j].rate)).taxable
  {
    var es := B2csKeyed(ts);
    forall k | k in B2csLinePairs(lines)
      ensures k in B2csRowPairs(ts)
    {
      var j :| 0 <= j < |lines| && k == (lines[j].pos, lines[j].rate);
      var i := BucketHasRow(es, j);
      assert gs[j].0 == es[i].0;
      assert k == (ts[i].mapped.jMapped, ts[i].rate);
    }
  }

  /** The lines' taxable values add up to the buckets' taxable total. */
  lemma {:induction false} LinesTaxableIsTotal(gs: seq<(Key, Totals)>, lines: seq<B2csLine>)
    requires |lines| == |gs| && forall j :: 0 <= j < |gs| ==> lines[j].taxable == gs[j].1.taxable
    ensures LinesTaxable(lines) == Total(gs).taxable
    decreases |gs|
  {
    if |gs| > 0 {
      LinesTaxableIsTotal(gs[..|gs| - 1], lines[..|lines| - 1]);
    }
  }

  /** Keying the rows keeps their taxable total. */
  lemma {:induction false} KeyedTaxable(ts: seq<Taxed>)
    ensures Total(B2csKeyed(ts)).taxable == TaxableTotal(ts)
    decreases |ts|
  {
    if |ts| > 0 {
      var init := ts[..|ts| - 1];
      KeyedTaxable(init);
      assert B2csKeyed(ts)[..|ts| - 1] == B2csKeyed(init);
    }
  }

  // ------------------------------------------------------------- HSN summary

  /** `generate_hsn_summary`: the unit-quantity code written beside every
      line, which the scripts disagree on. */
  function Uqc(variant: Variant): string {
    if variant == GstJson then "NOS" else "NOS-NUMBERS"
  }

  /** One line of the HSN summary: its key, unit code and column sums. */
  datatype HsnLine = HsnLine(hsn: string, uqc: string, rate: real, totals: Totals)

  /** `generate_hsn_summary`: one line per distinct (HSN, rate), holding the
      sums of quantity, value, taxable value and the three taxes of its rows. */
  function HsnSummary(variant: Variant, ts: seq<Taxed>): (lines: seq<HsnLine>)
    ensures |lines| <= |ts|
    ensures forall i, j :: 0 <= i < j < |lines| ==> (lines[i].hsn, lines[i].rate) != (lines[j].hsn, lines[j].rate)
    ensures forall j :: 0 <= j < |lines| ==>
      lines[j].uqc == Uqc(variant) && lines[j].totals == SumFor(HsnKeyed(ts), (lines[j].hsn, lines[j].rate))
    ensures HsnLineKeys(lines) == HsnRowKeys(ts)
    ensures Total(LinesKeyed(lines)) == Total(HsnKeyed(ts))
  {
    var lines := HsnLinesOf(variant, GroupBy(HsnKeyed(ts)));
    HsnLinesShape(variant, ts, lines);
    HsnCovers(ts, GroupBy(HsnKeyed(ts)), lines);
    HsnLinesOccur(ts, GroupBy(HsnKeyed(ts)), lines);
    lines
  }

  /** The lines drawn from the HSN buckets are as many as the buckets, keyed
      apart, hold their keys' sums, and keep the column totals. */
  lemma HsnLinesShape(variant: Variant, ts: seq<Taxed>, lines: seq<HsnLine>)
    requires lines == HsnLinesOf(variant, GroupBy(HsnKeyed(ts)))
    ensures |lines| <= |ts|
    ensures forall i, j :: 0 <= i < j < |lines| ==> (lines[i].hsn, lines[i].rate) != (lines[j].hsn, lines[j].rate)
    ensures forall j :: 0 <= j < |lines| ==>
      lines[j].uqc == Uqc(variant) && lines[j].totals == SumFor(HsnKeyed(ts), (lines[j].hsn, lines[j].rate))
    ensures Total(LinesKeyed(lines)) == Total(HsnKeyed(ts))
  {
    var gs := GroupBy(HsnKeyed(ts));
    GroupBySize(HsnKeyed(ts));
    assert LinesKeyed(lines) == gs;
  }

  /** The (HSN, rate) keys the rows carry. */
  function HsnRowKeys(ts: seq<Taxed>): set<Key> {
    set i | 0 <= i < |ts| :: (ts[i].mapped.row.rec.hsn, ts[i].rate)
  }

  /** The (HSN, rate) keys of some HSN lines. */
  function HsnLineKeys(lines: seq<HsnLine>): set<Key> {
    set j | 0 <= j < |lines| :: (lines[j].hsn, lines[j].rate)
  }

  /** One HSN line per bucket. */
  function HsnLinesOf(variant: Variant, gs: seq<(Key, Totals)>): (lines: seq<HsnLine>)
    ensures |lines| == |gs|
    ensures forall j :: 0 <= j < |gs| ==> lines[j] == HsnLine(gs[j].0.0, Uqc(variant), gs[j].0.1, gs[j].1)
  {
    seq(|gs|, j requires 0 <= j < |gs| => HsnLine(gs[j].0.0, Uqc(variant), gs[j].0.1, gs[j].1))
  }

  /** Lines drawn one for one from the HSN buckets cover every row's
      (HSN, rate) key. */
  lemma HsnCovers(ts: seq<Taxed>, gs: seq<(Key, Totals)>, lines: seq<HsnLine>)
    requires gs == GroupBy(HsnKeyed(ts))
    requires |lines| == |gs| && forall j :: 0 <= j < |gs| ==> lines[j].hsn == gs[j].0.0 && lines[j].rate == gs[j].0.1
    ensures HsnRowKeys(ts) <= HsnLineKeys(lines)
  {
    var es := HsnKeyed(ts);
    forall k | k in HsnRowKeys(ts)
      ensures k in HsnLineKeys(lines)
    {
      var i :| 0 <= i < |ts| && k == (ts[i].mapped.row.rec.hsn, ts[i].rate);
      var j := RowHasBucket(es, i);
      assert gs[j].0 == es[i].0;
      assert k == (lines[j].hsn, lines[j].rate);
    }
  }

  /** Lines drawn one for one from the HSN buckets carry only keys some row
      has. */
  lemma HsnLinesOccur(ts: seq<Taxed>, gs: seq<(Key, Totals)>, lines: seq<HsnLine>)
    requires gs == GroupBy(HsnKeyed(ts))
    requires |lines| == |gs| && forall j :: 0 <= j < |gs| ==> lines[j].hsn == gs[j].0.0 && lines[j].rate == gs[j].0.1
    ensures HsnLineKeys(lines) <= HsnRowKeys(ts)
  {
    var es := HsnKeyed(ts);
    forall k | k in HsnLineKeys(lines)
      ensures k in HsnRowKeys(ts)
    {
      var j :| 0 <= j < |lines| && k == (lines[j].hsn, lines[j].rate);
      var i := BucketHasRow(es, j);
      assert gs[j].0 == es[i].0;
      assert k == (ts[i].mapped.row.rec.hsn, ts[i].rate);
    }
  }

  /** HSN lines seen again as buckets. */
  function LinesKeyed(lines: seq<HsnLine>): seq<(Key, Totals)> {
    seq(|lines|, j requires 0 <= j < |lines| => ((lines[j].hsn, lines[j].rate), lines[j].totals))
  }

  /** There are never more buckets than rows. */
  lemma GroupBySize<K>(es: seq<(K, Totals)>)
    ensures |GroupBy(es)| <= |es|
  {
    var gs := GroupBy(es);
    var ks := seq(|gs|, j requires 0 <= j < |gs| => gs[j].0);
    DistinctOccurringBound(es, ks);
  }

  /** Distinct keys that all occur among the rows are at most as many as the
      rows. */
  lemma {:induction false} DistinctOccurringBound<K>(es: seq<(K, Totals)>, ks: seq<K>)
    requires forall i, j :: 0 <= i < j < |ks| ==> ks[i] != ks[j]
    requires forall j :: 0 <= j < |ks| ==> Occurs(es, ks[j])
    ensures |ks| <= |es|
    decreases |es|
  {
    if |ks| > 0 {
      assert Occurs(es, ks[0]);
      var init := es[..|es| - 1];
      var last := es[|es| - 1].0;
      // Drop the one key (if any) that only the last row carries.
      var rest := RemoveKey(ks, last);
      forall j | 0 <= j < |rest|
        ensures Occurs(init, rest[j])
      {
        assert rest[j] in ks && rest[j] != last;
        var m :| 0 <= m < |ks| && ks[m] == rest[j];
        assert Occurs(es, ks[m]);
      }
      DistinctOccurringBound(init, rest);
    }
  }

  /** The keys other than `k`: at most one fewer, still distinct. */
  function RemoveKey<K(==)>(ks: seq<K>, k: K): (rest: seq<K>)
    requires forall i, j :: 0 <= i < j < |ks| ==> ks[i] != ks[j]
    ensures |rest| >= |ks| - 1
    ensures k !in ks ==> |rest| == |ks|
    ensures forall j :: 0 <= j < |rest| ==> rest[j] in ks && rest[j] != k
    ensures forall i, j :: 0 <= i < j < |rest| ==> rest[i] != rest[j]
    decreases |ks|
  {
    if |ks| == 0 then []
    else
      var init := ks[..|ks| - 1];
      var r := RemoveKey(init, k);
      if ks[|ks| - 1] == k then
        assert k !in init;
        r
      else
        assert ks[|ks| - 1] !in init;
        r + [ks[|ks| - 1]]
  }

  /** A row's columns are balanced: its value is its taxable value plus its
      three taxes, and its CGST equals its SGST. */
  predicate Balanced(t: Totals) {
    t.value == t.taxable + t.igst + t.cgst + t.sgst && t.cgst == t.sgst
  }

  /** Every taxed row is balanced, NaN amounts included (they add 0 to every
      column). */
  lemma RowBalanced(t: Taxed, m: Mapped, intra: bool)
    requires TaxedFrom(t, m, intra)
    ensures Balanced(TotalsOf(t))
  {
  }

  /** Every keyed row of a taxed table is balanced. */
  lemma KeyedRowsBalanced(rule: IntraRule, ms: seq<Mapped>)
    ensures forall i :: 0 <= i < |ms| ==> Balanced(HsnKeyed(ApplyTax(rule, ms))[i].1)
  {
    var ts := ApplyTax(rule, ms);
    forall i | 0 <= i < |ms|
      ensures Balanced(HsnKeyed(ts)[i].1)
    {
      RowBalanced(ts[i], ms[i], IsIntra(rule, ms[i].jMapped));
    }
  }

  /** Balance survives summation. */
  lemma {:induction false} SumForBalanced<K>(es: seq<(K, Totals)>, k: K)
    requires forall i :: 0 <= i < |es| ==> Balanced(es[i].1)
    ensures Balanced(SumFor(es, k))
    decreases |es|
  {
    if |es| > 0 {
      var init := es[..|es| - 1];
      assert forall i :: 0 <= i < |init| ==> init[i] == es[i];
      SumForBalanced(init, k);
    }
  }

  /** In every HSN line of a taxed table, the summed total value is the
      summed taxable value plus the summed IGST, CGST and SGST, and the
      summed CGST equals the summed SGST. */
  lemma HsnLinesBalanced(variant: Variant, rule: IntraRule, ms: seq<Mapped>)
    ensures forall j :: 0 <= j < |HsnSummary(variant, ApplyTax(rule, ms))| ==>
      Balanced(HsnSummary(variant, ApplyTax(rule, ms))[j].totals)
  {
    KeyedRowsBalanced(rule, ms);
    LinesBalanced(variant, ApplyTax(rule, ms));
  }

  /** Lines summed from balanced rows are balanced. */
  lemma LinesBalanced(variant: Variant, ts: seq<Taxed>)
    requires forall i :: 0 <= i < |ts| ==> Balanced(HsnKeyed(ts)[i].1)
    ensures forall j :: 0 <= j < |HsnSummary(variant, ts)| ==> Balanced(HsnSummary(variant, ts)[j].totals)
  {
    var es := HsnKeyed(ts);
    var lines := HsnSummary(variant, ts);
    forall j | 0 <= j < |lines|
      ensures Balanced(lines[j].totals)
    {
      var k := (lines[j].hsn, lines[j].rate);
      assert lines[j].totals == SumFor(es, k);
      SumForBalanced(es, k);
    }
  }

  // ------------------------------------------------------------ GSTR-1 JSON

  /** Python `int()` of a number: truncation toward zero. */
  function Trunc(r: real): (n: int)
    ensures r >= 0.0 ==> 0.0 <= n as real <= r && r - (n as real) < 1.0
    ensures r < 0.0 ==> r <= n as real <= 0.0 && (n as real) - r < 1.0
  {
    if r >= 0.0 then r.Floor else -((-r).Floor)
  }

  datatype Supply = Intra | Inter

  /** One flat B2CS object of the JSON payload (`csamt` is always 0). */
  datatype B2csEntry = B2csEntry(
    splyTy: Supply, rt: int, typ: string, pos: string,
    txval: real, iamt: real, camt: real, samt: real)

  /** A bucket the JSON keeps: its taxable value is not within 0.005 of 0. */
  predicate Kept(b: (Key, Totals)) {
    !(Abs(b.1.taxable) < 0.005)
  }

  /** The JSON object of one bucket: the place of supply is the first two
      characters of the bucket's code, intra-state when they are the
      supplier's code. */
  function EntryOf(b: (Key, Totals), supplierCode: string): B2csEntry {
    var pos := Number(b.0.0);
    B2csEntry(if pos == supplierCode then Intra else Inter, Trunc(b.0.1), "OE", pos,
              b.1.taxable, b.1.igst, b.1.cgst, b.1.sgst)
  }

  /** The kept buckets, in order. */
  function KeptOf(gs: seq<(Key, Totals)>): (ks: seq<(Key, Totals)>)
    ensures |ks| <= |gs|
    ensures forall b :: b in ks <==> b in gs && Kept(b)
    decreases |gs|
  {
    if |gs| == 0 then []
    else
      var init := KeptOf(gs[..|gs| - 1]);
      assert gs == gs[..|gs| - 1] + [gs[|gs| - 1]];
      if Kept(gs[|gs| - 1]) then init + [gs[|gs| - 1]] else init
  }

  /** The `b2cs` list of `generate_gstr1_json`, built by the loop that skips
      the buckets whose taxable value is within 0.005 of 0: one entry per
      kept bucket, in order. */
  function B2csEntries(gs: seq<(Key, Totals)>, supplierCode: string): (es: seq<B2csEntry>)
    ensures |es| == |KeptOf(gs)|
    ensures forall k :: 0 <= k < |es| ==> es[k] == EntryOf(KeptOf(gs)[k], supplierCode)
    ensures forall i :: 0 <= i < |es| ==>
      && es[i].typ == "OE" && |es[i].pos| <= 2 && !(Abs(es[i].txval) < 0.005)
      && (es[i].splyTy == Intra <==> es[i].pos == supplierCode)
    decreases |gs|
  {
    if |gs| == 0 then []
    else
      var init := gs[..|gs| - 1];
      var rest := B2csEntries(init, supplierCode);
      if Kept(gs[|gs| - 1]) then rest + [EntryOf(gs[|gs| - 1], supplierCode)] else rest
  }

  /** The JSON's supply type agrees with the tax actually charged: under the
      GSTIN-prefix rule, an INTRA entry carries no IGST and an INTER entry no
      CGST or SGST, because every row of a bucket shares its code. */
  lemma SupplyTypeMatchesTax(supplierCode: string, ms: seq<Mapped>)
    ensures var es := B2csEntries(GroupBy(B2csKeyed(ApplyTax(SamePrefix(supplierCode), ms))), supplierCode);
      forall i :: 0 <= i < |es| ==>
        (es[i].splyTy == Intra ==> es[i].iamt == 0.0) && (es[i].splyTy == Inter ==> es[i].camt == 0.0 && es[i].samt == 0.0)
  {
    var rows := B2csKeyed(ApplyTax(SamePrefix(supplierCode), ms));
    forall k: Key
      ensures ChargedBySupply(rows, supplierCode, k)
    {
      BucketTaxes(supplierCode, ms, k);
    }
    EntriesMatchTax(supplierCode, rows, GroupBy(rows));
  }

  /** The rows of key `k` are charged as its code says: no IGST when the code
      starts with the supplier code, no CGST or SGST otherwise. */
  predicate ChargedBySupply(rows: seq<(Key, Totals)>, supplierCode: string, k: Key) {
    && (Number(k.0) == supplierCode ==> SumFor(rows, k).igst == 0.0)
    && (Number(k.0) != supplierCode ==> SumFor(rows, k).cgst == 0.0 && SumFor(rows, k).sgst == 0.0)
  }

  /** The same, for any buckets holding the sums of rows charged by supply. */
  lemma EntriesMatchTax(supplierCode: string, rows: seq<(Key, Totals)>, gs: seq<(Key, Totals)>)
    requires forall k: Key :: ChargedBySupply(rows, supplierCode, k)
    requires forall j :: 0 <= j < |gs| ==> gs[j].1 == SumFor(rows, gs[j].0)
    ensures var es := B2csEntries(gs, supplierCode);
      forall i :: 0 <= i < |es| ==>
        (es[i].splyTy == Intra ==> es[i].iamt == 0.0) && (es[i].splyTy == Inter ==> es[i].camt == 0.0 && es[i].samt == 0.0)
  {
    var es := B2csEntries(gs, supplierCode);
    forall i | 0 <= i < |es|
      ensures (es[i].splyTy == Intra ==> es[i].iamt == 0.0) && (es[i].splyTy == Inter ==> es[i].camt == 0.0 && es[i].samt == 0.0)
    {
      var b := KeptOf(gs)[i];
      assert b in KeptOf(gs);
      var j :| 0 <= j < |gs| && gs[j] == b;
      assert ChargedBySupply(rows, supplierCode, gs[j].0);
    }
  }

  /** Every row of a B2CS bucket is judged alike, so a bucket whose code
      starts with the supplier code sums no IGST, and any other no CGST or
      SGST. */
  lemma BucketTaxes(supplierCode: string, ms: seq<Mapped>, k: Key)
    ensures ChargedBySupply(B2csKeyed(ApplyTax(SamePrefix(supplierCode), ms)), supplierCode, k)
  {
    var ts := ApplyTax(SamePrefix(supplierCode), ms);
    var es := B2csKeyed(ts);
    var intra := Number(k.0) == supplierCode;
    forall i | 0 <= i < |es| && es[i].0 == k
      ensures TaxedFrom(ts[i], ms[i], intra)
    {
      assert ts[i].mapped.jMapped == k.0;
    }
    if intra {
      SumForVanishes(es, k, Igst);
    } else {
      SumForVanishes(es, k, Cgst);
      SumForVanishes(es, k, Sgst);
    }
  }

  /** One object of the JSON's `hsn_b2c` list (`desc` is "", `uqc` "NOS",
      `csamt` 0). The HSN code is carried as text. */
  datatype HsnEntry = HsnEntry(
    num: nat, hsnSc: string, qty: real,
    txval: real, iamt: real, camt: real, samt: real, rt: int)

  /** A bucket the JSON lists: a non-blank HSN code and a positive rate. */
  predicate Listed(b: (Key, Totals)) {
    !IsBlank(b.0.0) && b.0.1 > 0.0
  }

  function HsnEntryOf(b: (Key, Totals), num: nat): HsnEntry {
    HsnEntry(num, b.0.0, b.1.qty, b.1.taxable, b.1.igst, b.1.cgst, b.1.sgst, Trunc(b.0.1))
  }

  /** The listed buckets, in order. */
  function ListedOf(gs: seq<(Key, Totals)>): (ls: seq<(Key, Totals)>)
    ensures |ls| <= |gs|
    ensures forall b :: b in ls <==> b in gs && Listed(b)
    decreases |gs|
  {
    if |gs| == 0 then []
    else
      var init := ListedOf(gs[..|gs| - 1]);
      assert gs == gs[..|gs| - 1] + [gs[|gs| - 1]];
      if Listed(gs[|gs| - 1]) then init + [gs[|gs| - 1]] else init
  }

  /** The `hsn_b2c` list as the loop of `generate_gstr1_json` builds it: the
      listed buckets in order, numbered 1, 2, 3, ... by a counter that only
      advances when an entry is emitted. */
  method NumberHsn(gs: seq<(Key, Totals)>) returns (entries: seq<HsnEntry>)
    ensures |entries| == |ListedOf(gs)|
    ensures forall k :: 0 <= k < |entries| ==> entries[k] == HsnEntryOf(ListedOf(gs)[k], k + 1)
    ensures entries == HsnEntries(gs)
  {
    entries := [];
    var counter := 1;
    for i := 0 to |gs|
      invariant counter == |entries| + 1
      invariant NumberedFrom(entries, ListedOf(gs[..i]))
    {
      ListedOfStep(gs, i);
      if Listed(gs[i]) {
        NumberedAppend(entries, ListedOf(gs[..i]), gs[i]);
        entries := entries + [HsnEntryOf(gs[i], counter)];
        counter := counter + 1;
      }
    }
    assert gs[..|gs|] == gs;
    NumberHsnMatches(gs, entries);
  }

  /** `entries` numbers the buckets `ls` one for one, starting at 1. */
  predicate NumberedFrom(entries: seq<HsnEntry>, ls: seq<(Key, Totals)>) {
    |entries| == |ls| && forall k :: 0 <= k < |entries| ==> entries[k] == HsnEntryOf(ls[k], k + 1)
  }

  /** Numbering one more bucket with the next number keeps the numbering. */
  lemma NumberedAppend(entries: seq<HsnEntry>, ls: seq<(Key, Totals)>, b: (Key, Totals))
    requires NumberedFrom(entries, ls)
    ensures NumberedFrom(entries + [HsnEntryOf(b, |entries| + 1)], ls + [b])
  {
  }

  /** Listing one more bucket appends it when it is listed. */
  lemma ListedOfStep(gs: seq<(Key, Totals)>, i: nat)
    requires i < |gs|
    ensures ListedOf(gs[..i + 1]) == ListedOf(gs[..i]) + (if Listed(gs[i]) then [gs[i]] else [])
  {
    assert gs[..i + 1][..i] == gs[..i];
  }

  /** The `hsn_b2c` list as a function, bucket by bucket: a listed bucket
      is appended with the next number, any other is skipped. The entries
      are the listed buckets in order, numbered 1, 2, 3, ..., and every
      listed bucket has its entry. */
  function HsnEntries(gs: seq<(Key, Totals)>): (es: seq<HsnEntry>)
    ensures |es| == |ListedOf(gs)|
    ensures forall k :: 0 <= k < |es| ==> es[k].num == k + 1 && es[k] == HsnEntryOf(ListedOf(gs)[k], k + 1)
    ensures forall b :: b in gs && Listed(b) ==> exists k :: 0 <= k < |es| && es[k] == HsnEntryOf(b, k + 1)
    decreases |gs|
  {
    if |gs| == 0 then []
    else
      var rest := HsnEntries(gs[..|gs| - 1]);
      if Listed(gs[|gs| - 1]) then rest + [HsnEntryOf(gs[|gs| - 1], |rest| + 1)] else rest
  }

  /** The loop and the function build the same list. */
  lemma NumberHsnMatches(gs: seq<(Key, Totals)>, entries: seq<HsnEntry>)
    requires |entries| == |ListedOf(gs)|
    requires forall k :: 0 <= k < |entries| ==> entries[k] == HsnEntryOf(ListedOf(gs)[k], k + 1)
    ensures entries == HsnEntries(gs)
  {
  }

  /** The buckets of the rows' keys that the JSON's `b2cs` list keeps. */
  function KeptBuckets(es: seq<(Key, Totals)>): set<(Key, Totals)> {
    set i | 0 <= i < |es| && Kept(BucketOfRow(es, i)) :: BucketOfRow(es, i)
  }

  /** The buckets of the rows' keys that the JSON's `hsn_b2c` list keeps. */
  function ListedBuckets(es: seq<(Key, Totals)>): set<(Key, Totals)> {
    set i | 0 <= i < |es| && Listed(BucketOfRow(es, i)) :: BucketOfRow(es, i)
  }

  /** The `b2cs` list holds exactly the entries of the kept buckets of the
      rows. */
  lemma B2csEntriesOfRows(es: seq<(Key, Totals)>, supplierCode: string)
    ensures (set e | e in B2csEntries(GroupBy(es), supplierCode)) ==
            (set b | b in KeptBuckets(es) :: EntryOf(b, supplierCode))
  {
    var gs := GroupBy(es);
    var bs := B2csEntries(gs, supplierCode);
    var ks := KeptOf(gs);
    forall e | e in bs
      ensures e in (set b | b in KeptBuckets(es) :: EntryOf(b, supplierCode))
    {
      var k :| 0 <= k < |bs| && bs[k] == e;
      assert ks[k] in ks;
      var j :| 0 <= j < |gs| && gs[j] == ks[k];
      var i := BucketHasRow(es, j);
      assert BucketOfRow(es, i) in KeptBuckets(es);
    }
    forall b | b in KeptBuckets(es)
      ensures EntryOf(b, supplierCode) in bs
    {
      var i :| 0 <= i < |es| && Kept(BucketOfRow(es, i)) && b == BucketOfRow(es, i);
      var j := RowHasBucket(es, i);
      assert gs[j] in ks;
      var k :| 0 <= k < |ks| && ks[k] == gs[j];
      assert bs[k] == EntryOf(b, supplierCode);
    }
  }

  /** Apart from their numbers, the `hsn_b2c` entries are exactly those of
      the listed buckets of the rows. */
  lemma HsnEntriesOfRows(es: seq<(Key, Totals)>)
    ensures (set e | e in HsnEntries(GroupBy(es)) :: e.(num := 0)) ==
            (set b | b in ListedBuckets(es) :: HsnEntryOf(b, 0))
  {
    HsnEntriesFromRows(es);
    RowsHaveHsnEntries(es);
  }

  /** Every `hsn_b2c` entry is, up to its number, that of a listed bucket of
      the rows. */
  lemma HsnEntriesFromRows(es: seq<(Key, Totals)>)
    ensures (set e | e in HsnEntries(GroupBy(es)) :: e.(num := 0)) <=
            (set b | b in ListedBuckets(es) :: HsnEntryOf(b, 0))
  {
    var gs := GroupBy(es);
    var hs := HsnEntries(gs);
    var ls := ListedOf(gs);
    forall e | e in hs
      ensures e.(num := 0) in (set b | b in ListedBuckets(es) :: HsnEntryOf(b, 0))
    {
      var k :| 0 <= k < |hs| && hs[k] == e;
      assert ls[k] in ls;
      var j :| 0 <= j < |gs| && gs[j] == ls[k];
      var i := BucketHasRow(es, j);
      assert BucketOfRow(es, i) in ListedBuckets(es);
      assert e.(num := 0) == HsnEntryOf(BucketOfRow(es, i), 0);
    }
  }

  /** Every listed bucket of the rows has its `hsn_b2c` entry. */
  lemma RowsHaveHsnEntries(es: seq<(Key, Totals)>)
    ensures (set b | b in ListedBuckets(es) :: HsnEntryOf(b, 0)) <=
            (set e | e in HsnEntries(GroupBy(es)) :: e.(num := 0))
  {
    var gs := GroupBy(es);
    var hs := HsnEntries(gs);
    var ls := ListedOf(gs);
    forall b | b in ListedBuckets(es)
      ensures HsnEntryOf(b, 0) in (set e | e in hs :: e.(num := 0))
    {
      var i :| 0 <= i < |es| && Listed(BucketOfRow(es, i)) && b == BucketOfRow(es, i);
      var j := RowHasBucket(es, i);
      assert gs[j] in ls;
      var k :| 0 <= k < |ls| && ls[k] == gs[j];
      assert hs[k] in hs;
      assert hs[k].(num := 0) == HsnEntryOf(b, 0);
    }
  }

  /** The JSON payload, as a record. */
  datatype Gstr1 = Gstr1(
    gstin: string, fp: string, version: string, hash: string,
    b2cs: seq<B2csEntry>, hsnB2c: seq<HsnEntry>)

  /** `generate_gstr1_json`. */
  function Gstr1Of(gstin: string, fp: string, supplierCode: string, ts: seq<Taxed>): (g: Gstr1)
    ensures g.gstin == gstin && g.fp == fp && g.version == "GST3.2.3" && g.hash == "hash"
    ensures forall k :: 0 <= k < |g.hsnB2c| ==> g.hsnB2c[k].num == k + 1 && !IsBlank(g.hsnB2c[k].hsnSc)
    ensures forall i :: 0 <= i < |g.b2cs| ==> (g.b2cs[i].splyTy == Intra <==> g.b2cs[i].pos == supplierCode)
    ensures (set e | e in g.b2cs) == (set b | b in KeptBuckets(B2csKeyed(ts)) :: EntryOf(b, supplierCode))
    ensures (set e | e in g.hsnB2c :: e.(num := 0)) == (set b | b in ListedBuckets(HsnKeyed(ts)) :: HsnEntryOf(b, 0))
  {
    B2csEntriesOfRows(B2csKeyed(ts), supplierCode);
    HsnEntriesOfRows(HsnKeyed(ts));
    var hs := HsnEntries(GroupBy(HsnKeyed(ts)));
    assert forall k :: 0 <= k < |hs| ==> !IsBlank(hs[k].hsnSc) by {
      var ls := ListedOf(GroupBy(HsnKeyed(ts)));
      forall k | 0 <= k < |hs| ensures !IsBlank(hs[k].hsnSc) {
        assert ls[k] in ls;
      }
    }
    Gstr1(gstin, fp, "GST3.2.3", "hash", B2csEntries(GroupBy(B2csKeyed(ts)), supplierCode), hs)
  }
}

=== FILE: tax.dfy ===
/** The tax splitter, `calculate_tax_components`: each merged row is judged
    intra-state or inter-state, and its tax `amount * rate / 100` is charged
    half as CGST and half as SGST, or wholly as IGST. */
module Tax {
  import opened Basics
  import opened Strings
  import opened StateCodes
  import opened Rows

  /** How a script decides that a row is intra-state. The two newer scripts
      compare the first two characters of `J_mapped` with the first two of
      the supplier's GSTIN; the oldest compares the whole of `J_mapped` with a
      fixed jurisdiction code. */
  datatype IntraRule = SamePrefix(supplierCode: string) | SameCode(supplierState: string)

  predicate IsIntra(rule: IntraRule, jMapped: string) {
    match rule
    case SamePrefix(code) => Number(jMapped) == code
    case SameCode(state) => jMapped == state
  }

  /** The rule a script applies, given the supplier code it derived from its
      header (ignored by the oldest script). */
  function RuleOf(variant: Variant, supplierCode: string): IntraRule {
    if variant == MessoV1 then SameCode(Maharashtra) else SamePrefix(supplierCode)
  }

  /** A row with its coerced rate and tax columns. `None` is NaN. */
  datatype Taxed = Taxed(
    mapped: Mapped,
    rate: real,
    cgst: Option<real>,
    sgst: Option<real>,
    igst: Option<real>,
    totalTax: Option<real>,
    totalValue: Option<real>)

  /** `pd.to_numeric(rate, errors='coerce').fillna(0)`. */
  function CoerceRate(rate: Option<real>): real {
    rate.GetOr(0.0)
  }

  /** `amount * (rate / 100)`: the tax on an amount at a percentage rate. */
  function TaxAt(amount: real, rate: real): real {
    amount * (rate / 100.0)
  }

  /** The tax column before the split; NaN stays NaN. */
  function TaxOn(amount: Option<real>, rate: real): Option<real> {
    match amount
    case None => None
    case Some(a) => Some(TaxAt(a, rate))
  }

  /** Division by two; NaN stays NaN. */
  function Halve(x: Option<real>): Option<real> {
    match x
    case None => None
    case Some(v) => Some(v / 2.0)
  }

  /** Addition; NaN on either side gives NaN. */
  function Add(x: Option<real>, y: Option<real>): Option<real> {
    if x.Some? && y.Some? then Some(x.value + y.value) else None
  }

  /** `series.where(cond, 0)`: the value where the condition holds, else 0. */
  function Where(x: Option<real>, cond: bool): Option<real> {
    if cond then x else Some(0.0)
  }

  /** What the tax columns of `t` must be for row `m`, judged intra-state or
      not, stated in closed form: CGST equals SGST; an intra-state row pays no
      IGST and half the tax as each of CGST and SGST; an inter-state row pays
      no CGST or SGST and the whole tax as IGST; the total tax is the whole
      tax and the total value is the amount plus it. A NaN amount leaves NaN
      in the charged columns and in both totals, and 0 in the others. */
  predicate TaxedFrom(t: Taxed, m: Mapped, intra: bool) {
    var rate := CoerceRate(m.row.rec.rate);
    var amount := m.row.rec.amount;
    && t.mapped == m
    && t.rate == rate
    && t.cgst == t.sgst
    && (intra ==> t.igst == Some(0.0))
    && (!intra ==> t.cgst == Some(0.0))
    && (amount.Some? && intra ==> t.cgst == Some(TaxAt(amount.value, rate) / 2.0))
    && (amount.Some? && !intra ==> t.igst == Some(TaxAt(amount.value, rate)))
    && (amount.Some? ==> t.totalTax == Some(TaxAt(amount.value, rate)))
    && (amount.Some? ==> t.totalValue == Some(amount.value + TaxAt(amount.value, rate)))
    && (amount.None? ==> t.totalTax.None? && t.totalValue.None?)
    && (amount.None? && intra ==> t.cgst.None?)
    && (amount.None? && !intra ==> t.igst.None?)
  }

  /** One row of `calculate_tax_components`. */
  function Split(m: Mapped, intra: bool): (t: Taxed)
    ensures TaxedFrom(t, m, intra)
  {
    var rate := CoerceRate(m.row.rec.rate);
    var tax := TaxOn(m.row.rec.amount, rate);
    var half := Halve(Where(tax, intra));
    var igst := Where(tax, !intra);
    var totalTax := Add(Add(half, half), igst);
    Taxed(m, rate, half, half, igst, totalTax, Add(m.row.rec.amount, totalTax))
  }

  /** The closed form leaves no freedom: it determines every column. */
  lemma TaxedFromUnique(t: Taxed, m: Mapped, intra: bool)
    requires TaxedFrom(t, m, intra)
    ensures t == Split(m, intra)
  {
    var s := Split(m, intra);
    assert s.cgst == t.cgst && s.sgst == t.sgst && s.igst == t.igst;
  }

  /** A row whose rate is not a number is charged no tax at all. */
  lemma NonNumericRateIsUntaxed(m: Mapped, intra: bool)
    requires m.row.rec.rate.None? && m.row.rec.amount.Some?
    ensures var t := Split(m, intra);
      && t.cgst == t.sgst == t.igst == Some(0.0)
      && t.totalValue == m.row.rec.amount
  {
  }

  /** The tax step over a whole merged table, one row for one. */
  function ApplyTax(rule: IntraRule, ms: seq<Mapped>): (ts: seq<Taxed>)
    ensures |ts| == |ms|
    ensures forall i :: 0 <= i < |ts| ==> TaxedFrom(ts[i], ms[i], IsIntra(rule, ms[i].jMapped))
  {
    seq(|ms|, i requires 0 <= i < |ms| => Split(ms[i], IsIntra(rule, ms[i].jMapped)))
  }

  /** A row whose state did not resolve is never intra-state: the supplier
      code the newer scripts compare with is never empty, and neither is the
      fixed code of the oldest. */
  lemma UnresolvedIsInterState(variant: Variant, supplierCode: string)
    requires supplierCode != ""
    ensures !IsIntra(RuleOf(variant, supplierCode), "")
  {
  }

  /** On every code the state mapping can produce, the GSTIN-prefix rule
      with supplier code "27" and the oldest script's whole-code comparison
      with "27-Maharashtra" agree: Maharashtra is the only table entry
      numbered 27. */
  lemma RulesAgree(variant: Variant, state: Cell)
    ensures var code := MapState(variant, state);
      IsIntra(SamePrefix("27"), code) <==> IsIntra(SameCode(Maharashtra), code)
  {
    var code := MapState(variant, state);
    if code != "" {
      MapStateVariantsAgree(state);
      assert code == Resolve(state.s);
      var j :| Lookup(Title(state.s)) == Some(j) && code == Render(j);
      RulesAgreeOnEntry(j);
    }
  }

  /** The two rules agree on the rendering of any table entry. */
  lemma RulesAgreeOnEntry(j: Jurisdiction)
    requires Known(j) && (j.number == 27 <==> j == MaharashtraEntry)
    ensures IsIntra(SamePrefix("27"), Render(j)) <==> IsIntra(SameCode(Maharashtra), Render(j))
  {
    Pad2Digits(27);
    assert Render(MaharashtraEntry) == Maharashtra;
    RenderWellFormed(j);
    if Number(Render(j)) == "27" {
      Pad2Injective(j.number, 27);
    }
  }

  /** The example of the scripts' documentation: 1000 at 18% within the
      supplier's state is 90 CGST, 90 SGST and a total of 1180; outside it,
      180 IGST. */
  lemma SplitExample(m: Mapped)
    requires m.row.rec.amount == Some(1000.0) && m.row.rec.rate == Some(18.0)
    ensures Split(m, true).cgst == Some(90.0) && Split(m, true).igst == Some(0.0)
    ensures Split(m, true).totalValue == Some(1180.0)
    ensures Split(m, false).igst == Some(180.0) && Split(m, false).cgst == Some(0.0)
    ensures Split(m, false).totalValue == Some(1180.0)
  {
  }
}
